=== FILE: README.md ===
# Notion to Google Calendar reconciliation, modelled in Dafny

This project models the reconciliation core of a script that mirrors Notion task pages into
Google Calendar events (`sync.ts`). Each run walks the configured databases. For each one it
finds or creates the Google calendar of the same name and reads the recently edited pages.
Each page is then either deleted from the calendar (a finished task) or upserted into it (any
other task). The page's `GCal_ID` column holds the Google event id. The script reads it to
choose between insert and update, and writes it back to set or clear the correspondence.

The two remote services are not modelled as services. A remote request is a value of
`Remote.Request`, and its outcome is a `Remote.Outcome`: success, possibly carrying a returned
id, or a failure with a numeric code. A run is a pure function of a response oracle
`Responses = nat -> Outcome`. The k-th request of the run receives the k-th outcome, and each
request consumes exactly one outcome. A page's state is its decoded property map. A successful
write of `GCal_ID` replaces that column with a rich-text value. A failed write leaves the page
as it was.

Modules and files:

- `optional.dfy` (`Optional`): `Option`, standing for `undefined` and `null`.
- `notion_page.dfy` (`NotionPage`): page properties as a tagged union, the Done/Active
  classification, and the read-only views of title, stored id and due date.
- `calendar_event.dfy` (`CalendarEvent`): the event body, the all-day versus timed decision,
  end defaulting and the fixed time zone.
- `remote.dfy` (`Remote`): requests, outcomes and the response oracle.
- `reconcile.dfy` (`Reconcile`): `upsertEvent`, `deleteEvent`, their catch blocks and the
  per-page dispatch.
- `reconcile_properties.dfy` (`ReconcileProperties`): per-page properties and three worked
  scenarios.
- `sync_run.dfy` (`SyncRun`): calendar find-or-create, the page loop, the loop over targets,
  and the whole run.
- `sync_properties.dfy` (`SyncProperties`): run-level properties, and the page loop as an
  imperative loop proved equal to its functional model.

The page loop and the target loop take their step as a parameter: a page handler
(`SyncRun.PageHandler`) and a target runner (`SyncRun.TargetRunner`). `Sync` plugs in the
real ones: `SyncRun.Dispatch` for pages, and `SyncRun.SyncTarget` with the run's calendar list,
dispatch and responses for targets. The loop lemmas are proved for any handler or runner with
the stated properties. Companion lemmas show that the real ones have those properties.

The run reads each target's database after the earlier targets have written. The model
therefore takes one database view per target, in target order, as an input. Two targets
configured on the same database may see different views.

Behaviour of `sync.ts` that the model follows:

- A failure to read the calendar list (sync.ts:178), to create a calendar (196), to retrieve
  a database (206) or to query it (216) is not confined to its target. It reaches the outer
  `catch` at 254 and ends the run. Only a database whose metadata lists no data source is
  skipped, by the `continue` at 208-211.
- `upsertEvent` requires four columns: Task, Due Date, GCal_ID and Last Edited Time
  (sync.ts:47).
- The `catch` at sync.ts:104 covers the insert, the write-back and the update alike. A 404
  from any of them clears the id. For the write-back this can only happen in the model's
  oracle (see "Left out").
- The description text is `Synced from Notion database with sari' s script: <database>`. In
  the template literal at sync.ts:73 the apostrophe is escaped and followed by an escaped
  space.

## Model

| member | source | states |
|---|---|---|
| NotionPage.Classify | sync.ts:230-239 | A page is Done exactly when Status is a status or select property whose option is named "Done"; missing Status, no option or another type gives Active |
| NotionPage.TaskName | sync.ts:53-55 | The title is the first title segment's text when that is non-empty, otherwise the fallback; it is never empty when the fallback is not |
| NotionPage.StoredId | sync.ts:58 | The stored id is the first rich-text segment of GCal_ID; a missing column, another type, no segment or an empty text all mean no id, and a present id is never empty |
| NotionPage.DueDate | sync.ts:57 | A due date exists exactly when Due Date is date-typed with a non-null value |
| NotionPage.WithGCalId | sync.ts:87-92 | A successful GCal_ID write changes no other decoded column; writing [] leaves no id, writing [id] leaves exactly id |
| CalendarEvent.Schedule | sync.ts:63-68 | Both boundaries are all-day exactly when the start has no 'T', otherwise timed in America/Guayaquil; the end is the due end unless absent or empty, then the start |
| CalendarEvent.Description | sync.ts:73 | The description is the fixed provenance text followed by the database name |
| CalendarEvent.BuildEvent | sync.ts:70-76 | The event summary is never empty and is the task title or "Untitled"; its boundaries are those of the due date's schedule |
| CalendarEvent.BuildEventReadsOnlyTask | sync.ts:52-76 | Pages that agree on Task get the same event body for the same due date and database |
| Reconcile.ClearId | sync.ts:108-111 | Clearing GCal_ID issues one empty write; if it succeeds no id remains, if it fails the error escapes and the page is unchanged |
| Reconcile.RecoverUpsert | sync.ts:104-114 | After a 404 one clearing write follows; when it succeeds no id remains, and the handler lets an error escape exactly when that write fails, since it sits inside the catch block; any other code adds no request, keeps the page and lets nothing escape |
| Reconcile.Upsert | sync.ts:43-116 | No request without the four columns and a due date; insert only without a stored id, update under exactly the stored id otherwise; never a delete; only GCal_ID changes, and it ends unchanged, cleared or equal to the id the insert returned; when every request succeeds nothing escapes |
| Reconcile.RecoverDelete | sync.ts:147-157 | After a 404 or 410 one clearing write follows; when it succeeds no id remains, and the handler lets an error escape exactly when that write fails; any other code adds no request, keeps the page and lets nothing escape |
| Reconcile.Delete | sync.ts:119-159 | No request without a stored id; otherwise the first request deletes that id and every later one clears GCal_ID; the id ends unchanged or cleared; when every request succeeds nothing escapes |
| Reconcile.HandlePage | sync.ts:230-247 | A page whose Status is Done is sent to the delete path. With a stored id its first request deletes that event, and it only ever deletes events or writes GCal_ID; without one it issues nothing and leaves the page as read. Any other page is sent to the upsert path. With the four required columns and a date value, its first request inserts the event when no id is stored and otherwise updates the stored one; without them it issues nothing and leaves the page as read; it never deletes. Every event request goes to the calendar the page is handled with, and when every request succeeds no error escapes |
| ReconcileProperties.CreateWritesBackReturnedId | sync.ts:79-94 | Without a stored id the event is inserted, and GCal_ID holds an id afterwards exactly when the insert returned a non-empty id and the write-back succeeded; that id is the returned one |
| ReconcileProperties.InsertWithoutIdWritesNothing | sync.ts:86-94 | An insert returning no id or an empty id is followed by no write |
| ReconcileProperties.UpdateUsesStoredId | sync.ts:95-103 | With a stored id the only request is an update under that id, and a successful update writes nothing |
| ReconcileProperties.RepeatedUpsertUpdates | sync.ts:79-103 | Once an upsert stored an id, upserting the page again updates that event with the same body and inserts nothing |
| ReconcileProperties.NotFoundOnUpsertClearsId | sync.ts:104-111 | A 404 from the insert or update is followed by one clearing write, which leaves no stored id |
| ReconcileProperties.OtherUpsertErrorKeepsId | sync.ts:104-114 | A failure other than 404 of the insert or update itself leaves the page, GCal_ID included, unchanged and the run going |
| ReconcileProperties.FailedWriteBackLeavesEventUnrecorded | sync.ts:81-114 | When the insert succeeds but the write-back fails with a code other than 404, the page keeps no id and the run goes on, so the next upsert of the page inserts the event again |
| ReconcileProperties.DeleteClearsId | sync.ts:134-143 | A successful delete is followed by one clearing write, which leaves no stored id |
| ReconcileProperties.GoneEventStillClearsId | sync.ts:147-154 | A delete failing with 404 or 410 still clears GCal_ID |
| ReconcileProperties.OtherDeleteErrorKeepsId | sync.ts:155-157 | Any other delete failure is the only request and leaves the page, GCal_ID included, as it was read |
| ReconcileProperties.FailedClearAfterNotFoundEscapes | sync.ts:104-111 | When an insert or update is answered by 404 and the clearing write then fails, the error escapes the handler, which ends the run, and the page stays as read |
| ReconcileProperties.FailedClearAfterGoneEscapes | sync.ts:147-154 | When a delete is answered by 404 or 410 and the clearing write then fails, the error escapes the handler, which ends the run, and the page stays as read |
| ReconcileProperties.DeleteTwiceIsQuiet | sync.ts:122-125 | Once a delete cleared the id, deleting again issues no request |
| ReconcileProperties.UnschedulablePageIsSkipped | sync.ts:47-61 | Without one of Task, Due Date, GCal_ID, Last Edited Time, or without a date value, an upsert issues nothing and writes nothing |
| ReconcileProperties.AllDayTaskIsCreated | sync.ts:64-92 | An unsynced Active task due on a date, passed through the page dispatch, is inserted as an all-day event titled by the task, and the returned id is stored |
| ReconcileProperties.FinishedTaskIsDeleted | sync.ts:234-243 | A Done task with id "evt123" causes one delete of "evt123" and one clearing write |
| ReconcileProperties.MissingEventIsForgotten | sync.ts:95-111 | An update of "evt999" answered by 404 clears the id and does not escape |
| SyncRun.ConfiguredTargets | sync.ts:37-40 | The two configured targets have distinct calendar names |
| SyncRun.FindCalendar | sync.ts:185-187 | The result is the first calendar whose summary equals the name exactly, or none when no entry matches |
| SyncRun.ResolveCalendar | sync.ts:184-203 | A calendar is created exactly when no listed entry matches, with the name and the fixed zone, and the id the creation returns is the one used; otherwise the first match's id is used; a failed creation aborts |
| SyncRun.SyncPages | sync.ts:228-251 | A loop that does not abort handles every page read; one that aborts has handled at least one page |
| SyncRun.SyncTarget | sync.ts:184-251 | The calendar resolution comes first; a failed creation aborts before the database is read; an unreadable database aborts; a database without a data source adds only the resolution; with the calendar resolved, a target that does not abort has handled every page its query returned |
| SyncRun.SyncTargets | sync.ts:181-252 | With a runner that stops on an unreadable database, a loop that does not abort met no unreadable view, and an unreadable first view ends it with no page handled |
| SyncRun.Sync | sync.ts:166-260 | A failed calendar-list read ends the run with no request; a completed run had the list and read no unreadable database |
| SyncProperties.HandlePageInsertsAtMostOnce | sync.ts:241-247 | Handling one page inserts at most one event, and none unless it is Active with no stored id |
| SyncProperties.DispatchIsWellBehaved | sync.ts:241-247 | The dispatch inserts only for unsynced pages, changes only GCal_ID and never creates a calendar |
| SyncProperties.AtMostOneEventPerUnsyncedPage | sync.ts:229-251 | Whatever the services answer, a page loop inserts at most as many events as it met Active pages without an id |
| SyncProperties.HandledPagesChangeOnlyId | sync.ts:229-251 | Every page the loop handled differs from the page read at most in the decoded GCal_ID column |
| SyncProperties.LoopHandlesPagesInOrder | sync.ts:229-247 | The i-th page the loop handled is what the handler made of the i-th page read |
| SyncProperties.LoopAbortsOnlyOnEscape | sync.ts:229-254 | The loop aborts only when the handler let an error escape on the last page it handled; with handlers that never let one escape, it never aborts |
| SyncProperties.TargetEventsGoToResolvedCalendar | sync.ts:190-203 | Under a factory whose handlers address the calendar they were built for, every event request of a target goes to the calendar its resolution chose |
| SyncProperties.EventsGoToTheTargetsCalendar | sync.ts:190-247 | In a run, every insert, update and delete for a target's pages goes to the first listed calendar of its name or to the one just created |
| SyncProperties.TargetJustified | sync.ts:184-226 | One target creates at most its own calendar, in the fixed zone, and only when the calendar list lacks that name |
| SyncProperties.CalendarsCreatedOnlyWhenUnlisted | sync.ts:181-252 | Over the target loop, every calendar created is named after a configured target, is in the fixed zone and was not in the calendar list |
| SyncProperties.RunCreatesOnlyMissingCalendars | sync.ts:178-203 | The same for a whole run, which creates nothing when the calendar list cannot be read |
| SyncProperties.TargetCreatesAtMostItsCalendar | sync.ts:184-203 | One target creates at most one calendar of a given name, and none unless it bears that name |
| SyncProperties.CreationsPerName | sync.ts:178-203 | The target loop creates a calendar of a name at most as often as targets bear that name, since the calendar list is read only once |
| SyncProperties.ConfiguredRunCreatesEachCalendarOnce | sync.ts:37-40 | With the two configured targets, a run never creates two calendars of the same name |
| SyncProperties.SkippedDatabaseDoesNotStopRun | sync.ts:208-211 | A database without a data source whose calendar exists is skipped, and the run continues exactly as without it |
| SyncProperties.UnreadableDatabaseEndsRun | sync.ts:206-224 | A database that cannot be read ends the run after its calendar resolution, and no later target is processed |
| SyncProperties.TargetHandlesItsPages | sync.ts:184-247 | Once its calendar is resolved, the i-th page a target handled is what the handler built for the resolved calendar and the target's name made of the i-th page its query returned |
| SyncProperties.LoopHandlesEveryPage | sync.ts:229-251 | With handlers that return the page they were given, a page loop that does not abort has handled every page read, once each and in order (same Notion ids, same order) |
| SyncProperties.TargetHandlesAll | sync.ts:206-251 | A target that does not abort has handled every page its query returned, once each and in order; a skipped database contributes none |
| SyncProperties.TargetLoopHandlesEveryPage | sync.ts:181-252 | A target loop that does not abort has handled every page of every database, once each, in target order and within a database in query order |
| SyncProperties.CompletedRunHandlesEveryPage | sync.ts:166-252 | A run that completes read the calendar list and handled every page every database query returned, once each and in order |
| SyncProperties.TargetAbortsOnlyOnFailure | sync.ts:184-251 | A target aborts only when creating its calendar failed, its database could not be read, or the handler let an error escape on the last page it handled; a target whose calendar resolves, whose database can be read and whose handler never lets an error escape runs to its end |
| SyncProperties.QuietTargetCompletes | sync.ts:184-251 | With every request succeeding, a target whose database can be read runs to its end |
| SyncProperties.TargetLoopCompletes | sync.ts:181-252 | The target loop visits every target: with a runner that completes on readable databases and no unreadable database, it does not abort |
| SyncProperties.QuietRunCompletes | sync.ts:166-252 | With the calendar list read, every request succeeding and every database readable, a run goes to its end and handles every page every query returned, once each and in order |
| SyncProperties.RunPages | sync.ts:229-251 | The page loop as a loop with an early exit yields the same trace as the functional page loop |

## Left out

- Environment loading and client construction (sync.ts:5-34) are process setup with libraries outside this model.
- The Notion and Google HTTP calls become abstract outcomes given by the response oracle. Error codes are numbers throughout. Real Notion errors carry string codes, which never equal 404 or 410, so a 404 from a GCal_ID write exists only in the oracle.
- Console logging carries no behaviour and is left out. The "Untitled Task" title in `deleteEvent` is used only for logging, so it is left out as well.
- The 350 ms pause after each page (sync.ts:250) is timing only and changes no state.
- The 30-minute delta threshold (sync.ts:169) and the query filter (sync.ts:216-224) depend on the clock and on the remote query. The model takes the returned pages as given (`SyncRun.SourceView`), one view per target.
- WithGCalId: a real `pages.update` also advances the page's last-edited time. That column (Last Edited Time, sync.ts:47) is decoded as an opaque value, so "only GCal_ID changes" holds for the decoded columns only. The same timestamp decides whether a later run's query returns the page (sync.ts:218-222).
- OtherDeleteErrorKeepsId: a failed delete writes nothing, so the page's last-edited time does not move. A later run retries the delete only while the user's last edit is under 30 minutes old; after that the query no longer returns the page.
- A metadata retrieval failure and a query failure are merged into one `Unreadable` view, because both end the run the same way.
- ResolveCalendar: a calendar creation that succeeds without returning an id is modelled as the empty calendar id. The source asserts non-null with `!` and would pass `undefined` on.
- Only the first page of `calendarList.list` (sync.ts:178) is read; the model, like the code, has no pagination. Calendar list entries always have an id and a summary, as the Google API returns them.
- Date strings are never parsed or validated, and neither does the code parse them: it only tests for 'T'.

=== FILE: calendar_event.dfy ===
/**
 * The Google Calendar event body the reconciler sends, built purely from a
 * page's decoded properties and the name of its database.
 */
module CalendarEvent {
  import opened Optional
  import opened NotionPage

  /** The fixed time zone of timed events and of created calendars. */
  const TimeZone := "America/Guayaquil"

  /** The title used when the task has no usable title text. */
  const UntitledTask := "Untitled"

  /** The fixed provenance text the description starts with (the escaped space in the source yields "sari' s"). */
  const DescriptionPrefix := "Synced from Notion database with sari' s script: "

  /** An event boundary: date-only for all-day events, or a date-time with a time zone. */
  datatype EventTime =
    | AllDay(date: string)
    | Timed(dateTime: string, timeZone: string)

  datatype Event = Event(summary: string, description: string, start: EventTime, end: EventTime)

  /** The date string carried by an event boundary, whichever its kind. */
  function Stamp(b: EventTime): string {
    match b
    case AllDay(d) => d
    case Timed(dt, _) => dt
  }

  /** A start string denotes an all-day date when it has no time separator 'T'. */
  predicate IsAllDay(start: string) {
    'T' !in start
  }

  /**
   * Start and end of the event for a due date. Both boundaries are date-only
   * exactly when the start has no 'T' anywhere, and timed in the fixed zone
   * otherwise; the end is the due date's end unless that is absent or empty,
   * in which case it is the start.
   */
  function Schedule(d: DateVal): (r: (EventTime, EventTime))
    ensures r.0.AllDay? <==> (forall i :: 0 <= i < |d.start| ==> d.start[i] != 'T')
    ensures r.0.AllDay? <==> r.1.AllDay?
    ensures r.0.Timed? ==> r.0.timeZone == TimeZone && r.1.Timed? && r.1.timeZone == TimeZone
    ensures Stamp(r.0) == d.start
    ensures d.end.None? || d.end == Some("") ==> Stamp(r.1) == d.start
    ensures d.end.Some? && d.end.value != "" ==> Stamp(r.1) == d.end.value
  {
    var endStamp := if d.end.Some? && d.end.value != "" then d.end.value else d.start;
    if IsAllDay(d.start) then (AllDay(d.start), AllDay(endStamp))
    else (Timed(d.start, TimeZone), Timed(endStamp, TimeZone))
  }

  /** The event description: the fixed provenance text followed by the database name. */
  function Description(dbName: string): (s: string)
    ensures |s| == |DescriptionPrefix| + |dbName|
    ensures s[..|DescriptionPrefix|] == DescriptionPrefix
    ensures s[|s| - |dbName|..] == dbName
  {
    DescriptionPrefix + dbName
  }

  /**
   * The event body for a page with a due date: its title (or "Untitled"),
   * the provenance description naming the database, and the scheduled
   * boundaries. Only Task and the given due date influence it.
   */
  function BuildEvent(props: Props, dbName: string, d: DateVal): (e: Event)
    ensures e.summary != ""
    ensures e.summary == TaskName(props, UntitledTask)
    ensures e.description == Description(dbName)
    ensures (e.start, e.end) == Schedule(d)
  {
    Event(TaskName(props, UntitledTask), Description(dbName), Schedule(d).0, Schedule(d).1)
  }

  /** Two property maps that agree on Task yield the same event body. */
  lemma BuildEventReadsOnlyTask(p: Props, q: Props, dbName: string, d: DateVal)
    requires TaskColumn in p <==> TaskColumn in q
    requires TaskColumn in p ==> p[TaskColumn] == q[TaskColumn]
    ensures BuildEvent(p, dbName, d) == BuildEvent(q, dbName, d)
  {
  }
}

=== FILE: notion_page.dfy ===
/**
 * The Notion side of the synchronisation: a page's properties, decoded once
 * into a tagged union, and the read-only views the reconciler takes of them.
 * Property names are the exact column names the database must provide.
 */
module NotionPage {
  import opened Optional

  const TaskColumn := "Task"
  const DueDateColumn := "Due Date"
  const GCalIdColumn := "GCal_ID"
  const LastEditedColumn := "Last Edited Time"
  const StatusColumn := "Status"

  /** The status or select option name that marks a task as finished. */
  const DoneName := "Done"

  /** A Notion date value: a start string and an optional end string, never parsed. */
  datatype DateVal = DateVal(start: string, end: Option<string>)

  /**
   * One decoded page property. Title and rich-text values keep only the
   * plain text of each segment; status and select keep the option name,
   * or None when no option is chosen.
   */
  datatype Prop =
    | Title(segments: seq<string>)
    | Date(date: Option<DateVal>)
    | RichText(segments: seq<string>)
    | Status(name: Option<string>)
    | Select(name: Option<string>)
    | Other

  type Props = map<string, Prop>

  datatype Page = Page(id: string, props: Props)

  /** True when `b` differs from `a` at most in the GCal_ID column. */
  ghost predicate OnlyIdChanged(a: Page, b: Page) {
    && a.id == b.id
    && (forall k :: k in a.props && k != GCalIdColumn ==> k in b.props && b.props[k] == a.props[k])
    && (forall k :: k in b.props && k != GCalIdColumn ==> k in a.props)
  }

  /** Whether the reconciler treats the page as a finished task. */
  datatype Disposition = Done | Active

  /**
   * A page is Done exactly when its Status column is a status or select
   * property whose chosen option is named "Done"; a missing column, an
   * empty option or any other property type leaves it Active.
   */
  function Classify(props: Props): (c: Disposition)
    ensures c == Done <==>
      && StatusColumn in props
      && (props[StatusColumn] == Status(Some(DoneName)) || props[StatusColumn] == Select(Some(DoneName)))
  {
    if StatusColumn !in props then Active
    else
      match props[StatusColumn]
      case Status(Some(n)) => if n == DoneName then Done else Active
      case Select(Some(n)) => if n == DoneName then Done else Active
      case _ => Active
  }

  /**
   * The task title: the plain text of the first title segment, or
   * `fallback` when the column is missing, not title-typed, has no segment
   * or an empty first segment.
   */
  function TaskName(props: Props, fallback: string): (name: string)
    ensures fallback != "" ==> name != ""
    ensures name == fallback
            || (TaskColumn in props && props[TaskColumn].Title?
                && |props[TaskColumn].segments| > 0 && name == props[TaskColumn].segments[0])
    ensures (TaskColumn in props && props[TaskColumn].Title? && |props[TaskColumn].segments| > 0
             && props[TaskColumn].segments[0] != "") ==> name == props[TaskColumn].segments[0]
  {
    if TaskColumn in props then
      match props[TaskColumn]
      case Title(segs) => if |segs| > 0 && segs[0] != "" then segs[0] else fallback
      case _ => fallback
    else fallback
  }

  /**
   * The stored Google Calendar event id: the plain text of the first
   * rich-text segment of GCal_ID. A missing column, another property type,
   * no segment or an empty first segment all mean "no id".
   */
  function StoredId(props: Props): (id: Option<string>)
    ensures id.Some? ==> id.value != ""
    ensures id.Some? <==>
      (GCalIdColumn in props && props[GCalIdColumn].RichText?
       && |props[GCalIdColumn].segments| > 0 && props[GCalIdColumn].segments[0] != "")
    ensures id.Some? ==> id.value == props[GCalIdColumn].segments[0]
  {
    if GCalIdColumn in props then
      match props[GCalIdColumn]
      case RichText(segs) => if |segs| > 0 && segs[0] != "" then Some(segs[0]) else None
      case _ => None
    else None
  }

  /** The due date, when the Due Date column is date-typed and its value is not null. */
  function DueDate(props: Props): (d: Option<DateVal>)
    ensures d.Some? <==> (DueDateColumn in props && props[DueDateColumn].Date? && props[DueDateColumn].date.Some?)
    ensures d.Some? ==> props[DueDateColumn] == Date(d)
  {
    if DueDateColumn in props then
      match props[DueDateColumn]
      case Date(dv) => dv
      case _ => None
    else None
  }

  /** The four columns an upsert refuses to work without. */
  predicate HasRequiredColumns(props: Props) {
    TaskColumn in props && DueDateColumn in props && GCalIdColumn in props && LastEditedColumn in props
  }

  /**
   * The page after a successful Notion write of GCal_ID with the given
   * rich-text segments (the empty sequence clears the column).
   */
  function WithGCalId(page: Page, segments: seq<string>): (p: Page)
    ensures OnlyIdChanged(page, p)
    ensures GCalIdColumn in p.props && p.props[GCalIdColumn] == RichText(segments)
    ensures segments == [] ==> StoredId(p.props).None?
    ensures |segments| == 1 && segments[0] != "" ==> StoredId(p.props) == Some(segments[0])
    ensures HasRequiredColumns(page.props) ==> HasRequiredColumns(p.props)
  {
    page.(props := page.props[GCalIdColumn := RichText(segments)])
  }
}

=== FILE: optional.dfy ===
/**
 * Optional values. The script reads many JavaScript values that may be
 * `undefined` or `null`; both become `None` here.
 */
module Optional {

  datatype Option<T> = None | Some(value: T)

  /** The value held, or `fallback` when there is none, as `x ?? fallback` reads it. */
  function ValueOr<T>(o: Option<T>, fallback: T): (v: T)
    ensures o.Some? ==> v == o.value
    ensures o.None? ==> v == fallback
  {
    if o.Some? then o.value else fallback
  }
}

=== FILE: reconcile.dfy ===
/**
 * The per-page state machine: what `upsertEvent` and `deleteEvent` request
 * from the two services, and what the page's GCal_ID becomes, given the
 * outcomes those requests receive.
 */
module Reconcile {
  import opened Optional
  import opened NotionPage
  import opened CalendarEvent
  import opened Remote

  /**
   * What handling one page did: the requests issued in order (request i
   * received the response at clock t + i), the page as Notion now holds it,
   * and whether an error escaped the handler, which ends the whole run.
   */
  datatype Effect = Effect(requests: seq<Request>, page: Page, escaped: bool)

  ghost predicate NoInsert(rs: seq<Request>) {
    forall i :: 0 <= i < |rs| ==> !rs[i].InsertEvent?
  }

  /** Whether an upsert gets past its guards: all columns present and a non-null date-typed due date. */
  predicate Schedulable(page: Page) {
    HasRequiredColumns(page.props) && DueDate(page.props).Some?
  }

  /** The event body an upsert of a schedulable page sends. */
  function EventOf(page: Page, dbName: string): Event
    requires Schedulable(page)
  {
    BuildEvent(page.props, dbName, DueDate(page.props).value)
  }

  /**
   * Writes an empty GCal_ID at clock t after `issued`: on success the id is
   * cleared; if that write itself fails, the error escapes the handler.
   */
  function ClearId(page: Page, issued: seq<Request>, rs: Responses, t: nat): (e: Effect)
    ensures e.requests == issued + [WriteGCalId(page.id, [])]
    ensures rs(t).Ok? ==> !e.escaped && StoredId(e.page.props).None? && OnlyIdChanged(page, e.page)
    ensures rs(t).Err? ==> e.escaped && e.page == page
  {
    var clear := WriteGCalId(page.id, []);
    match rs(t)
    case Ok(_) => Effect(issued + [clear], WithGCalId(page, []), false)
    case Err(_) => Effect(issued + [clear], page, true)
  }

  /** The catch block of upsertEvent: a 404 clears the stored id, anything else is only logged. */
  function RecoverUpsert(page: Page, issued: seq<Request>, code: int, rs: Responses, t: nat): (e: Effect)
    ensures code == NotFound ==> e.requests == issued + [WriteGCalId(page.id, [])]
    ensures code == NotFound && rs(t).Ok? ==> StoredId(e.page.props).None? && !e.escaped
    ensures code == NotFound ==> (e.escaped <==> rs(t).Err?)
    ensures code != NotFound ==> e == Effect(issued, page, false)
    ensures OnlyIdChanged(page, e.page)
    ensures e.escaped ==> e.page == page
  {
    if code == NotFound then ClearId(page, issued, rs, t)
    else Effect(issued, page, false)
  }

  /**
   * upsertEvent. Without all four required columns, or without a non-null
   * date-typed due date, nothing is requested or written. Otherwise, with
   * no stored id, the event is inserted and the returned id (when non-empty)
   * written to GCal_ID; with a stored id, that event is updated in place.
   * A 404 from any request of that block clears GCal_ID; any other failure
   * leaves the page as it was.
   */
  function Upsert(calendarId: string, dbName: string, page: Page, rs: Responses, t: nat): (e: Effect)
    ensures !Schedulable(page) ==> e == Effect([], page, false)
    ensures OnlyIdChanged(page, e.page)
    ensures e.escaped ==> e.page == page
    ensures |e.requests| <= 3
    ensures forall i :: 0 <= i < |e.requests| ==> !e.requests[i].DeleteEvent? && !e.requests[i].CreateCalendar?
    ensures forall i :: 0 < i < |e.requests| ==> e.requests[i].WriteGCalId? && e.requests[i].pageId == page.id
    ensures StoredId(page.props).Some? ==> NoInsert(e.requests)
    ensures Schedulable(page) && StoredId(page.props).None? ==>
              |e.requests| > 0 && e.requests[0] == InsertEvent(calendarId, EventOf(page, dbName))
    ensures Schedulable(page) && StoredId(page.props).Some? ==>
              |e.requests| > 0 && e.requests[0] == UpdateEvent(calendarId, StoredId(page.props).value, EventOf(page, dbName))
    ensures StoredId(e.page.props) == StoredId(page.props) || StoredId(e.page.props).None?
            || (StoredId(page.props).None? && rs(t).Ok? && StoredId(e.page.props) == rs(t).returnedId)
    ensures Quiet(rs) ==> !e.escaped
  {
    if !Schedulable(page) then Effect([], page, false)
    else
      var body := EventOf(page, dbName);
      match StoredId(page.props)
      case None =>
        var insert := InsertEvent(calendarId, body);
        (match rs(t)
         case Err(c) => RecoverUpsert(page, [insert], c, rs, t + 1)
         case Ok(returned) =>
           if returned.None? || returned.value == "" then Effect([insert], page, false)
           else
             var write := WriteGCalId(page.id, [returned.value]);
             (match rs(t + 1)
              case Ok(_) => Effect([insert, write], WithGCalId(page, [returned.value]), false)
              case Err(c) => RecoverUpsert(page, [insert, write], c, rs, t + 2)))
      case Some(id) =>
        var update := UpdateEvent(calendarId, id, body);
        (match rs(t)
         case Ok(_) => Effect([update], page, false)
         case Err(c) => RecoverUpsert(page, [update], c, rs, t + 1))
  }

  /**
   * deleteEvent. Without a stored id nothing is requested. Otherwise the
   * event is deleted and GCal_ID cleared; a 404 or 410 from either request
   * also clears GCal_ID, and any other failure leaves the page as it was,
   * so a later run that reads the page again retries the deletion.
   */
  function Delete(calendarId: string, page: Page, rs: Responses, t: nat): (e: Effect)
    ensures StoredId(page.props).None? ==> e == Effect([], page, false)
    ensures StoredId(page.props).Some? ==>
              |e.requests| > 0 && e.requests[0] == DeleteEvent(calendarId, StoredId(page.props).value)
    ensures forall i :: 0 < i < |e.requests| ==> e.requests[i] == WriteGCalId(page.id, [])
    ensures OnlyIdChanged(page, e.page)
    ensures e.escaped ==> e.page == page
    ensures |e.requests| <= 3
    ensures StoredId(e.page.props) == StoredId(page.props) || StoredId(e.page.props).None?
    ensures Quiet(rs) ==> !e.escaped
  {
    match StoredId(page.props)
    case None => Effect([], page, false)
    case Some(id) =>
      var remove := DeleteEvent(calendarId, id);
      match rs(t)
      case Err(c) => RecoverDelete(page, [remove], c, rs, t + 1)
      case Ok(_) =>
        var cleared := ClearId(page, [remove], rs, t + 1);
        if !cleared.escaped then cleared
        else RecoverDelete(page, cleared.requests, rs(t + 1).code, rs, t + 2)
  }

  /** The catch block of deleteEvent: 404 and 410 mean already gone, so the id is cleared anyway. */
  function RecoverDelete(page: Page, issued: seq<Request>, code: int, rs: Responses, t: nat): (e: Effect)
    ensures code == NotFound || code == Gone ==> e.requests == issued + [WriteGCalId(page.id, [])]
    ensures (code == NotFound || code == Gone) && rs(t).Ok? ==> StoredId(e.page.props).None? && !e.escaped
    ensures code == NotFound || code == Gone ==> (e.escaped <==> rs(t).Err?)
    ensures code != NotFound && code != Gone ==> e == Effect(issued, page, false)
    ensures OnlyIdChanged(page, e.page)
    ensures e.escaped ==> e.page == page
  {
    if code == NotFound || code == Gone then ClearId(page, issued, rs, t)
    else Effect(issued, page, false)
  }

  /**
   * The dispatch inside the page loop: a Done page only ever reaches the
   * delete path, an Active one only the upsert path.
   */
  function HandlePage(calendarId: string, dbName: string, page: Page, rs: Responses, t: nat): (e: Effect)
    ensures Classify(page.props) == Done ==>
      forall i :: 0 <= i < |e.requests| ==> e.requests[i].DeleteEvent? || e.requests[i].WriteGCalId?
    ensures Classify(page.props) == Active ==>
      forall i :: 0 <= i < |e.requests| ==> !e.requests[i].DeleteEvent? && !e.requests[i].CreateCalendar?
    ensures Classify(page.props) == Active && Schedulable(page) && StoredId(page.props).None? ==>
              |e.requests| > 0 && e.requests[0] == InsertEvent(calendarId, EventOf(page, dbName))
    ensures Classify(page.props) == Active && Schedulable(page) && StoredId(page.props).Some? ==>
              |e.requests| > 0 && e.requests[0] == UpdateEvent(calendarId, StoredId(page.props).value, EventOf(page, dbName))
    ensures Classify(page.props) == Done && StoredId(page.props).Some? ==>
              |e.requests| > 0 && e.requests[0] == DeleteEvent(calendarId, StoredId(page.props).value)
    ensures Classify(page.props) == Done && StoredId(page.props).None? ==> e == Effect([], page, false)
    ensures Classify(page.props) == Active && !Schedulable(page) ==> e == Effect([], page, false)
    ensures Quiet(rs) ==> !e.escaped
    ensures forall i :: 0 <= i < |e.requests| ==> AddressedTo(e.requests[i], calendarId)
    ensures OnlyIdChanged(page, e.page)
    ensures e.escaped ==> e.page == page
    ensures |e.requests| <= 3
  {
    if Classify(page.props) == Done then Delete(calendarId, page, rs, t)
    else Upsert(calendarId, dbName, page, rs, t)
  }
}

=== FILE: reconcile_properties.dfy ===
/**
 * Properties of the per-page state machine that relate its outcomes to the
 * stored GCal_ID: creation writes back exactly the returned id, synced
 * pages are updated and never inserted again, 404 and 410 self-heal, and
 * every other failure leaves the page untouched.
 */
module ReconcileProperties {
  import opened Optional
  import opened NotionPage
  import opened CalendarEvent
  import opened Remote
  import opened Reconcile

  /**
   * On a schedulable page with no stored id the event is inserted, and
   * GCal_ID ends up holding an id exactly when the insert returned a
   * non-empty id and writing it back succeeded; that id is the returned one.
   */
  lemma CreateWritesBackReturnedId(calendarId: string, dbName: string, page: Page, rs: Responses, t: nat)
    requires Schedulable(page) && StoredId(page.props).None?
    ensures var e := Upsert(calendarId, dbName, page, rs, t);
      && e.requests[0] == InsertEvent(calendarId, EventOf(page, dbName))
      && (StoredId(e.page.props).Some? <==>
            rs(t).Ok? && rs(t).returnedId.Some? && rs(t).returnedId.value != "" && rs(t + 1).Ok?)
      && (StoredId(e.page.props).Some? ==>
            && StoredId(e.page.props) == rs(t).returnedId
            && e.requests == [InsertEvent(calendarId, EventOf(page, dbName)), WriteGCalId(page.id, [rs(t).returnedId.value])])
  {
  }

  /** An insert that returns no id (or an empty one) is the only request, and nothing is written. */
  lemma InsertWithoutIdWritesNothing(calendarId: string, dbName: string, page: Page, rs: Responses, t: nat)
    requires Schedulable(page) && StoredId(page.props).None?
    requires rs(t) == Ok(None) || rs(t) == Ok(Some(""))
    ensures Upsert(calendarId, dbName, page, rs, t)
            == Effect([InsertEvent(calendarId, EventOf(page, dbName))], page, false)
  {
  }

  /** A synced page is updated under exactly its stored id; a successful update changes nothing in Notion. */
  lemma UpdateUsesStoredId(calendarId: string, dbName: string, page: Page, rs: Responses, t: nat)
    requires Schedulable(page) && StoredId(page.props).Some?
    requires rs(t).Ok?
    ensures Upsert(calendarId, dbName, page, rs, t)
            == Effect([UpdateEvent(calendarId, StoredId(page.props).value, EventOf(page, dbName))], page, false)
  {
  }

  /**
   * Upserting a page twice never creates a second event: once the first
   * upsert stored an id, the second one (reading the page as Notion now
   * holds it, with the following responses) updates that very event with
   * the same body and issues no insert.
   */
  lemma {:induction false} RepeatedUpsertUpdates(calendarId: string, dbName: string, page: Page, rs: Responses, t: nat)
    requires Schedulable(page)
    requires StoredId(Upsert(calendarId, dbName, page, rs, t).page.props).Some?
    ensures var e1 := Upsert(calendarId, dbName, page, rs, t);
            var e2 := Upsert(calendarId, dbName, e1.page, rs, t + |e1.requests|);
      && NoInsert(e2.requests)
      && e2.requests[0] == UpdateEvent(calendarId, StoredId(e1.page.props).value, EventOf(page, dbName))
  {
    var e1 := Upsert(calendarId, dbName, page, rs, t);
    assert OnlyIdChanged(page, e1.page);
    assert e1.page.props[TaskColumn] == page.props[TaskColumn];
    assert e1.page.props[DueDateColumn] == page.props[DueDateColumn];
    assert e1.page.props[LastEditedColumn] == page.props[LastEditedColumn];
    assert Schedulable(e1.page);
    BuildEventReadsOnlyTask(page.props, e1.page.props, dbName, DueDate(page.props).value);
  }

  /**
   * A 404 from the first request of an upsert (insert or update) clears
   * GCal_ID so that a later run re-creates the event; the handler does not
   * fail as long as the clearing write succeeds.
   */
  lemma NotFoundOnUpsertClearsId(calendarId: string, dbName: string, page: Page, rs: Responses, t: nat)
    requires Schedulable(page)
    requires rs(t) == Err(NotFound) && rs(t + 1).Ok?
    ensures var e := Upsert(calendarId, dbName, page, rs, t);
      && |e.requests| == 2 && e.requests[1] == WriteGCalId(page.id, [])
      && StoredId(e.page.props).None? && !e.escaped
  {
  }

  /** Any failure other than 404 of the insert or update itself leaves the page, GCal_ID included, untouched. */
  lemma OtherUpsertErrorKeepsId(calendarId: string, dbName: string, page: Page, rs: Responses, t: nat)
    requires Schedulable(page)
    requires rs(t).Err? && rs(t).code != NotFound
    ensures var e := Upsert(calendarId, dbName, page, rs, t);
      e.page == page && !e.escaped && |e.requests| == 1
  {
  }

  /**
   * A write-back failing with anything but 404 is only logged: the event
   * exists in the calendar but the page keeps no id, so the next upsert of
   * the page inserts the event again.
   */
  lemma FailedWriteBackLeavesEventUnrecorded(calendarId: string, dbName: string, page: Page, rs: Responses, t: nat,
                                             later: Responses, t2: nat)
    requires Schedulable(page) && StoredId(page.props).None?
    requires rs(t).Ok? && rs(t).returnedId.Some? && rs(t).returnedId.value != ""
    requires rs(t + 1).Err? && rs(t + 1).code != NotFound
    ensures var e := Upsert(calendarId, dbName, page, rs, t);
      && e == Effect([InsertEvent(calendarId, EventOf(page, dbName)), WriteGCalId(page.id, [rs(t).returnedId.value])],
                     page, false)
      && Upsert(calendarId, dbName, e.page, later, t2).requests[0] == InsertEvent(calendarId, EventOf(page, dbName))
  {
  }

  /** A successful delete clears GCal_ID with one write after the one delete request. */
  lemma DeleteClearsId(calendarId: string, page: Page, rs: Responses, t: nat)
    requires StoredId(page.props).Some?
    requires rs(t).Ok? && rs(t + 1).Ok?
    ensures var e := Delete(calendarId, page, rs, t);
      && e.requests == [DeleteEvent(calendarId, StoredId(page.props).value), WriteGCalId(page.id, [])]
      && StoredId(e.page.props).None? && !e.escaped
  {
  }

  /** A delete answered by 404 or 410 counts as done: GCal_ID is cleared all the same. */
  lemma GoneEventStillClearsId(calendarId: string, page: Page, rs: Responses, t: nat)
    requires StoredId(page.props).Some?
    requires rs(t) == Err(NotFound) || rs(t) == Err(Gone)
    requires rs(t + 1).Ok?
    ensures var e := Delete(calendarId, page, rs, t);
      && e.requests == [DeleteEvent(calendarId, StoredId(page.props).value), WriteGCalId(page.id, [])]
      && StoredId(e.page.props).None? && !e.escaped
  {
  }

  /** Any other delete failure is the only request and leaves the page, GCal_ID included, as it was read. */
  lemma OtherDeleteErrorKeepsId(calendarId: string, page: Page, rs: Responses, t: nat)
    requires StoredId(page.props).Some?
    requires rs(t).Err? && rs(t).code != NotFound && rs(t).code != Gone
    ensures Delete(calendarId, page, rs, t)
            == Effect([DeleteEvent(calendarId, StoredId(page.props).value)], page, false)
  {
  }

  /**
   * The clearing write after a 404 sits inside the catch block of
   * upsertEvent, so its own failure is not caught there: it escapes the
   * handler with the page as it was read.
   */
  lemma FailedClearAfterNotFoundEscapes(calendarId: string, dbName: string, page: Page, rs: Responses, t: nat)
    requires Schedulable(page)
    requires rs(t) == Err(NotFound) && rs(t + 1).Err?
    ensures var e := Upsert(calendarId, dbName, page, rs, t);
      && e.escaped && e.page == page
      && |e.requests| == 2 && e.requests[1] == WriteGCalId(page.id, [])
  {
  }

  /** The same for deleteEvent: a failing clearing write after a 404 or 410 escapes the handler. */
  lemma FailedClearAfterGoneEscapes(calendarId: string, page: Page, rs: Responses, t: nat)
    requires StoredId(page.props).Some?
    requires rs(t) == Err(NotFound) || rs(t) == Err(Gone)
    requires rs(t + 1).Err?
    ensures var e := Delete(calendarId, page, rs, t);
      && e.escaped && e.page == page
      && e.requests == [DeleteEvent(calendarId, StoredId(page.props).value), WriteGCalId(page.id, [])]
  {
  }

  /** Deleting is idempotent: once a delete cleared the id, deleting again requests nothing. */
  lemma {:induction false} DeleteTwiceIsQuiet(calendarId: string, page: Page, rs: Responses, t: nat)
    requires StoredId(Delete(calendarId, page, rs, t).page.props).None?
    ensures var e1 := Delete(calendarId, page, rs, t);
      Delete(calendarId, e1.page, rs, t + |e1.requests|) == Effect([], e1.page, false)
  {
  }

  /** Upserting a page with no due date, or without one of the four required columns, requests and writes nothing. */
  lemma UnschedulablePageIsSkipped(calendarId: string, dbName: string, page: Page, rs: Responses, t: nat)
    requires !HasRequiredColumns(page.props) || DueDate(page.props).None?
    ensures Upsert(calendarId, dbName, page, rs, t) == Effect([], page, false)
  {
  }

  /** A page whose title, due date and id columns are set as given, with a Last Edited Time column and a status. */
  function SamplePage(id: string, task: string, due: DateVal, gcal: seq<string>, status: string): Page {
    Page(id, map[TaskColumn := Title([task]), DueDateColumn := Date(Some(due)),
                 GCalIdColumn := RichText(gcal), LastEditedColumn := Other,
                 StatusColumn := Status(Some(status))])
  }

  /** An unsynced all-day task is inserted as a date-only event titled by the task, then its returned id is stored. */
  lemma AllDayTaskIsCreated(calendarId: string, rs: Responses)
    requires rs(0) == Ok(Some("evt1")) && rs(1).Ok?
    ensures var page := SamplePage("p1", "Essay", DateVal("2024-05-01", None), [], "Not started");
            var e := HandlePage(calendarId, "Homework", page, rs, 0);
      && Classify(page.props) == Active
      && |e.requests| == 2
      && e.requests[0].InsertEvent?
      && e.requests[0].body.summary == "Essay"
      && e.requests[0].body.start == AllDay("2024-05-01")
      && e.requests[0].body.end == AllDay("2024-05-01")
      && e.requests[1] == WriteGCalId("p1", ["evt1"])
      && StoredId(e.page.props) == Some("evt1")
  {
  }

  /** A finished task with a stored id is deleted under that id and its id is cleared. */
  lemma FinishedTaskIsDeleted(calendarId: string, rs: Responses)
    requires rs(0).Ok? && rs(1).Ok?
    ensures var page := SamplePage("p2", "Quiz", DateVal("2024-05-02T10:00:00", None), ["evt123"], "Done");
            var e := HandlePage(calendarId, "Assessments", page, rs, 0);
      && e.requests == [DeleteEvent(calendarId, "evt123"), WriteGCalId("p2", [])]
      && StoredId(e.page.props).None?
  {
  }

  /** An update answered by 404 clears the stored id and does not fail the handler. */
  lemma MissingEventIsForgotten(calendarId: string, rs: Responses)
    requires rs(0) == Err(NotFound) && rs(1).Ok?
    ensures var page := SamplePage("p3", "Lab", DateVal("2024-05-03", None), ["evt999"], "In progress");
            var e := HandlePage(calendarId, "Homework", page, rs, 0);
      && e.requests[0].UpdateEvent? && e.requests[0].eventId == "evt999"
      && StoredId(e.page.props).None? && !e.escaped
  {
  }
}

=== FILE: remote.dfy ===
/**
 * The two remote services, reduced to the requests the reconciler issues and
 * the outcome each request receives. Nothing here talks to a network: the
 * outcome of the k-th request of a run is whatever the oracle says.
 */
module Remote {
  import opened Optional
  import opened CalendarEvent

  /** HTTP status codes the reconciler inspects on a failure. */
  const NotFound := 404
  const Gone := 410

  /**
   * The result of one remote call: success, possibly carrying the id of a
   * created resource, or a failure with its numeric error code.
   */
  datatype Outcome = Ok(returnedId: Option<string>) | Err(code: int)

  /** A remote request, with exactly the arguments the reconciler passes. */
  datatype Request =
    | InsertEvent(calendarId: string, body: Event)
    | UpdateEvent(calendarId: string, eventId: string, body: Event)
    | DeleteEvent(calendarId: string, eventId: string)
    | WriteGCalId(pageId: string, segments: seq<string>)
    | CreateCalendar(summary: string, timeZone: string)

  /** An event request goes to calendar `calendarId`; the other requests name no event calendar. */
  predicate AddressedTo(r: Request, calendarId: string) {
    (r.InsertEvent? || r.UpdateEvent? || r.DeleteEvent?) ==> r.calendarId == calendarId
  }

  /** The outcome the k-th request of a run receives. */
  type Responses = nat -> Outcome

  /** Every request of the run succeeds. */
  ghost predicate Quiet(rs: Responses) {
    forall k: nat :: rs(k).Ok?
  }
}

=== FILE: sync_properties.dfy ===
/**
 * Properties of a whole run: at most one event is created per page that
 * had no stored id, handled pages change only in GCal_ID, calendars are
 * created only for names the calendar list lacks, skipped databases do not
 * stop the run, and an unreadable database stops it for every later target.
 * Also an imperative rendering of the page loop, proved to agree with its
 * functional model.
 */
module SyncProperties {
  import opened Optional
  import opened NotionPage
  import opened CalendarEvent
  import opened Remote
  import opened Reconcile
  import opened SyncRun

  /** The number of event insertions among `reqs`. */
  function CountInserts(reqs: seq<Request>): nat {
    if |reqs| == 0 then 0
    else (if reqs[0].InsertEvent? then 1 else 0) + CountInserts(reqs[1..])
  }

  /** Whether an upsert of this page could create an event: it is Active and has no stored id. */
  predicate Unsynced(page: Page) {
    Classify(page.props) == Active && StoredId(page.props).None?
  }

  /** The number of unsynced pages among `pages`. */
  function CountUnsynced(pages: seq<Page>): nat {
    if |pages| == 0 then 0
    else (if Unsynced(pages[0]) then 1 else 0) + CountUnsynced(pages[1..])
  }

  /** A handler that inserts at most one event per page, and only for unsynced pages. */
  ghost predicate InsertsOnlyForUnsynced(handle: PageHandler) {
    forall p: Page, c: nat :: CountInserts(handle(p, c).requests) <= if Unsynced(p) then 1 else 0
  }

  /** A handler that changes nothing of a page but its GCal_ID. */
  ghost predicate KeepsOtherColumns(handle: PageHandler) {
    forall p: Page, c: nat :: OnlyIdChanged(p, handle(p, c).page)
  }

  ghost predicate NoCalendarRequest(reqs: seq<Request>) {
    forall i :: 0 <= i < |reqs| ==> !reqs[i].CreateCalendar?
  }

  /** A handler that never asks for a calendar to be created. */
  ghost predicate CreatesNoCalendar(handle: PageHandler) {
    forall p: Page, c: nat :: NoCalendarRequest(handle(p, c).requests)
  }

  lemma {:induction false} CountInsertsAppend(a: seq<Request>, b: seq<Request>)
    ensures CountInserts(a + b) == CountInserts(a) + CountInserts(b)
    decreases |a|
  {
    if |a| == 0 {
      assert a + b == b;
    } else {
      assert (a + b)[1..] == a[1..] + b;
      CountInsertsAppend(a[1..], b);
    }
  }

  lemma {:induction false} NoInsertCountsZero(reqs: seq<Request>)
    requires NoInsert(reqs)
    ensures CountInserts(reqs) == 0
    decreases |reqs|
  {
    if |reqs| > 0 {
      NoInsertCountsZero(reqs[1..]);
    }
  }

  /** Handling one page inserts at most one event, and none unless the page is unsynced. */
  lemma {:induction false} HandlePageInsertsAtMostOnce(calendarId: string, dbName: string, page: Page, rs: Responses, t: nat)
    ensures CountInserts(HandlePage(calendarId, dbName, page, rs, t).requests) <= if Unsynced(page) then 1 else 0
  {
    var e := HandlePage(calendarId, dbName, page, rs, t);
    if !Unsynced(page) {
      assert NoInsert(e.requests);
      NoInsertCountsZero(e.requests);
    } else if |e.requests| > 0 {
      assert NoInsert(e.requests[1..]);
      NoInsertCountsZero(e.requests[1..]);
    }
  }

  /** The dispatch handler meets the three handler properties the run-level lemmas rely on. */
  lemma {:induction false} DispatchIsWellBehaved(calendarId: string, dbName: string, rs: Responses)
    ensures InsertsOnlyForUnsynced(Dispatch(calendarId, dbName, rs))
    ensures KeepsOtherColumns(Dispatch(calendarId, dbName, rs))
    ensures CreatesNoCalendar(Dispatch(calendarId, dbName, rs))
  {
    forall p: Page, c: nat
      ensures CountInserts(Dispatch(calendarId, dbName, rs)(p, c).requests) <= if Unsynced(p) then 1 else 0
    {
      HandlePageInsertsAtMostOnce(calendarId, dbName, p, rs, c);
    }
  }

  lemma {:induction false} LoopInsertsOnlyForUnsynced(handle: PageHandler, pages: seq<Page>, t: nat)
    requires InsertsOnlyForUnsynced(handle)
    ensures CountInserts(SyncPages(handle, pages, t).requests) <= CountUnsynced(pages)
    decreases |pages|
  {
    if |pages| > 0 {
      var e := handle(pages[0], t);
      PagesStep(handle, pages, t);
      assert CountInserts(e.requests) <= if Unsynced(pages[0]) then 1 else 0;
      if !e.escaped {
        var rest := SyncPages(handle, pages[1..], t + |e.requests|);
        LoopInsertsOnlyForUnsynced(handle, pages[1..], t + |e.requests|);
        CountInsertsAppend(e.requests, rest.requests);
      }
    }
  }

  /**
   * However the services answer, the page loop of one database inserts at
   * most as many events as it met unsynced pages: no page gets a second
   * event within a run, and a synced or finished page never gets one.
   */
  lemma {:induction false} AtMostOneEventPerUnsyncedPage(calendarId: string, dbName: string, pages: seq<Page>, rs: Responses, t: nat)
    ensures CountInserts(SyncPages(Dispatch(calendarId, dbName, rs), pages, t).requests) <= CountUnsynced(pages)
  {
    DispatchIsWellBehaved(calendarId, dbName, rs);
    LoopInsertsOnlyForUnsynced(Dispatch(calendarId, dbName, rs), pages, t);
  }

  lemma {:induction false} LoopKeepsOtherColumns(handle: PageHandler, pages: seq<Page>, t: nat)
    requires KeepsOtherColumns(handle)
    ensures var r := SyncPages(handle, pages, t);
      forall i :: 0 <= i < |r.handled| ==> OnlyIdChanged(pages[i], r.handled[i])
    decreases |pages|
  {
    if |pages| > 0 {
      var e := handle(pages[0], t);
      var r := SyncPages(handle, pages, t);
      PagesStep(handle, pages, t);
      assert OnlyIdChanged(pages[0], e.page);
      if !e.escaped {
        var rest := SyncPages(handle, pages[1..], t + |e.requests|);
        LoopKeepsOtherColumns(handle, pages[1..], t + |e.requests|);
        assert r.handled == [e.page] + rest.handled;
        forall i | 0 <= i < |r.handled|
          ensures OnlyIdChanged(pages[i], r.handled[i])
        {
          if i > 0 {
            assert r.handled[i] == rest.handled[i - 1];
            assert pages[i] == pages[1..][i - 1];
          }
        }
      }
    }
  }

  /** The run writes nothing to a page but its GCal_ID: every handled page keeps all other columns. */
  lemma {:induction false} HandledPagesChangeOnlyId(calendarId: string, dbName: string, pages: seq<Page>, rs: Responses, t: nat)
    ensures var r := SyncPages(Dispatch(calendarId, dbName, rs), pages, t);
      forall i :: 0 <= i < |r.handled| ==> OnlyIdChanged(pages[i], r.handled[i])
  {
    DispatchIsWellBehaved(calendarId, dbName, rs);
    LoopKeepsOtherColumns(Dispatch(calendarId, dbName, rs), pages, t);
  }

  lemma {:induction false} LoopCreatesNoCalendar(handle: PageHandler, pages: seq<Page>, t: nat)
    requires CreatesNoCalendar(handle)
    ensures NoCalendarRequest(SyncPages(handle, pages, t).requests)
    decreases |pages|
  {
    if |pages| > 0 {
      var e := handle(pages[0], t);
      PagesStep(handle, pages, t);
      assert NoCalendarRequest(e.requests);
      if !e.escaped {
        LoopCreatesNoCalendar(handle, pages[1..], t + |e.requests|);
      }
    }
  }

  /** `after` is what the handler makes of `page` at some clock. */
  ghost predicate HandledFrom(handle: PageHandler, page: Page, after: Page) {
    exists c: nat :: after == handle(page, c).page
  }

  /** At some clock the handler lets an error escape on `page`. */
  ghost predicate EscapesOn(handle: PageHandler, page: Page) {
    exists c: nat :: handle(page, c).escaped
  }

  /** The i-th page the loop handled is what the handler made of the i-th page read. */
  lemma {:induction false} LoopHandlesPagesInOrder(handle: PageHandler, pages: seq<Page>, t: nat)
    ensures var r := SyncPages(handle, pages, t);
      forall i :: 0 <= i < |r.handled| ==> HandledFrom(handle, pages[i], r.handled[i])
    decreases |pages|
  {
    if |pages| > 0 {
      var e := handle(pages[0], t);
      var r := SyncPages(handle, pages, t);
      PagesStep(handle, pages, t);
      if !e.escaped {
        var rest := SyncPages(handle, pages[1..], t + |e.requests|);
        LoopHandlesPagesInOrder(handle, pages[1..], t + |e.requests|);
        assert r.handled == [e.page] + rest.handled;
        forall i | 0 <= i < |r.handled|
          ensures HandledFrom(handle, pages[i], r.handled[i])
        {
          if i == 0 {
            assert r.handled[0] == handle(pages[0], t).page;
          } else {
            assert pages[1..][i - 1] == pages[i];
            assert r.handled[i] == rest.handled[i - 1];
          }
        }
      } else {
        assert r.handled[0] == handle(pages[0], t).page;
      }
    }
  }

  /**
   * The loop aborts only because a handler let an error escape, on the
   * last page it handled; with handlers that never let one escape it
   * handles every page.
   */
  lemma {:induction false} LoopAbortsOnlyOnEscape(handle: PageHandler, pages: seq<Page>, t: nat)
    ensures var r := SyncPages(handle, pages, t);
      r.aborted ==> EscapesOn(handle, pages[|r.handled| - 1])
    ensures (forall p: Page, c: nat :: !handle(p, c).escaped) ==> !SyncPages(handle, pages, t).aborted
    decreases |pages|
  {
    if |pages| > 0 {
      var e := handle(pages[0], t);
      var r := SyncPages(handle, pages, t);
      PagesStep(handle, pages, t);
      if !e.escaped {
        var rest := SyncPages(handle, pages[1..], t + |e.requests|);
        LoopAbortsOnlyOnEscape(handle, pages[1..], t + |e.requests|);
        if r.aborted {
          assert rest.aborted && |r.handled| == 1 + |rest.handled|;
          assert pages[|r.handled| - 1] == pages[1..][|rest.handled| - 1];
        }
      } else {
        assert handle(pages[|r.handled| - 1], t).escaped;
      }
    }
  }

  /** Every request among `reqs` that addresses an event calendar addresses `calendarId`. */
  ghost predicate AllAddressedTo(reqs: seq<Request>, calendarId: string) {
    forall i :: 0 <= i < |reqs| ==> AddressedTo(reqs[i], calendarId)
  }

  /** A handler whose event requests all go to `calendarId`. */
  ghost predicate SendsEventsTo(handle: PageHandler, calendarId: string) {
    forall p: Page, c: nat :: AllAddressedTo(handle(p, c).requests, calendarId)
  }

  lemma {:induction false} AllAddressedToAppend(a: seq<Request>, b: seq<Request>, calendarId: string)
    requires AllAddressedTo(a, calendarId) && AllAddressedTo(b, calendarId)
    ensures AllAddressedTo(a + b, calendarId)
  {
    forall i | 0 <= i < |a + b|
      ensures AddressedTo((a + b)[i], calendarId)
    {
      if i >= |a| {
        assert (a + b)[i] == b[i - |a|];
      }
    }
  }

  lemma {:induction false} LoopSendsEventsTo(handle: PageHandler, pages: seq<Page>, t: nat, calendarId: string)
    requires SendsEventsTo(handle, calendarId)
    ensures AllAddressedTo(SyncPages(handle, pages, t).requests, calendarId)
    decreases |pages|
  {
    if |pages| > 0 {
      var e := handle(pages[0], t);
      PagesStep(handle, pages, t);
      assert AllAddressedTo(e.requests, calendarId);
      if !e.escaped {
        var rest := SyncPages(handle, pages[1..], t + |e.requests|);
        LoopSendsEventsTo(handle, pages[1..], t + |e.requests|, calendarId);
        AllAddressedToAppend(e.requests, rest.requests, calendarId);
      }
    }
  }

  /** A handler factory whose handler for a calendar id sends every event request to that calendar. */
  ghost predicate FactoryRespectsCalendar(handlerFor: HandlerFactory) {
    forall c: string, d: string :: SendsEventsTo(handlerFor(c, d), c)
  }

  /** A target's pages are handled with the calendar its resolution chose, found or created. */
  lemma {:induction false} TargetEventsGoToResolvedCalendar(cals: seq<CalendarEntry>, target: Target, view: SourceView,
                                         handlerFor: HandlerFactory, rs: Responses, t: nat)
    requires FactoryRespectsCalendar(handlerFor)
    ensures AllAddressedTo(SyncTarget(cals, target, view, handlerFor, rs, t).requests,
                           ResolveCalendar(cals, target.name, rs, t).calendarId)
  {
    var cal := ResolveCalendar(cals, target.name, rs, t);
    var r := SyncTarget(cals, target, view, handlerFor, rs, t);
    assert AllAddressedTo(cal.requests, cal.calendarId);
    if !cal.failed && view.Changed? {
      var handle := handlerFor(cal.calendarId, target.name);
      assert SendsEventsTo(handle, cal.calendarId);
      var done := SyncPages(handle, view.pages, t + |cal.requests|);
      assert r.requests == cal.requests + done.requests;
      LoopSendsEventsTo(handle, view.pages, t + |cal.requests|, cal.calendarId);
      AllAddressedToAppend(cal.requests, done.requests, cal.calendarId);
    } else {
      assert r.requests == cal.requests;
    }
  }

  /** The dispatch of a run sends every event request to the calendar it was built for. */
  lemma {:induction false} DispatchFactoryRespectsCalendar(rs: Responses)
    ensures FactoryRespectsCalendar(Dispatchers(rs))
  {
    forall c: string, d: string
      ensures SendsEventsTo(Dispatchers(rs)(c, d), c)
    {
      forall p: Page, k: nat
        ensures AllAddressedTo(Dispatchers(rs)(c, d)(p, k).requests, c)
      {
        var e := HandlePage(c, d, p, rs, k);
      }
    }
  }

  /**
   * In a run, every insert, update and delete of a target's pages goes to
   * the calendar resolved for that target: the first listed calendar of
   * its name, or the one just created.
   */
  lemma {:induction false} EventsGoToTheTargetsCalendar(cals: seq<CalendarEntry>, target: Target, view: SourceView, rs: Responses, t: nat)
    ensures AllAddressedTo(SyncTarget(cals, target, view, Dispatchers(rs), rs, t).requests,
                           ResolveCalendar(cals, target.name, rs, t).calendarId)
  {
    DispatchFactoryRespectsCalendar(rs);
    TargetEventsGoToResolvedCalendar(cals, target, view, Dispatchers(rs), rs, t);
  }

  /** A handler factory none of whose handlers ever asks for a calendar to be created. */
  ghost predicate FactoryCreatesNoCalendar(handlerFor: HandlerFactory) {
    forall c: string, d: string :: CreatesNoCalendar(handlerFor(c, d))
  }

  /** The dispatch handler of a run creates no calendar, whatever calendar and database it serves. */
  lemma {:induction false} DispatchFactoryCreatesNoCalendar(rs: Responses)
    ensures FactoryCreatesNoCalendar(Dispatchers(rs))
  {
    forall c: string, d: string
      ensures CreatesNoCalendar(Dispatch(c, d, rs))
    {
      DispatchIsWellBehaved(c, d, rs);
    }
  }

  /** One step of the target loop: the first target, then, unless it aborted, the others. */
  lemma {:induction false} TargetsStep(run: TargetRunner, targets: seq<Target>, views: seq<SourceView>, t: nat)
    requires |targets| > 0 && |views| == |targets|
    ensures var first := run(targets[0], views[0], t);
      SyncTargets(run, targets, views, t)
      == if first.aborted then first
         else Then(first, SyncTargets(run, targets[1..], views[1..], t + |first.requests|))
  {
  }

  /** Every calendar creation among `reqs` names a target, uses the fixed zone, and names no listed calendar. */
  ghost predicate CreationsJustified(reqs: seq<Request>, cals: seq<CalendarEntry>, targets: seq<Target>) {
    forall i :: 0 <= i < |reqs| && reqs[i].CreateCalendar? ==>
      && reqs[i].timeZone == TimeZone
      && Unlisted(cals, reqs[i].summary)
      && reqs[i].summary in Names(targets)
  }

  /** The calendar names of the targets, in configuration order. */
  function Names(targets: seq<Target>): (names: seq<string>)
    ensures |names| == |targets|
    ensures forall k :: 0 <= k < |targets| ==> names[k] == targets[k].name
  {
    if |targets| == 0 then [] else [targets[0].name] + Names(targets[1..])
  }

  lemma {:induction false} CreationsJustifiedAppend(a: seq<Request>, b: seq<Request>, cals: seq<CalendarEntry>, targets: seq<Target>)
    requires CreationsJustified(a, cals, targets) && CreationsJustified(b, cals, targets)
    ensures CreationsJustified(a + b, cals, targets)
  {
    forall i | 0 <= i < |a + b| && (a + b)[i].CreateCalendar?
      ensures (a + b)[i].timeZone == TimeZone && Unlisted(cals, (a + b)[i].summary)
      ensures (a + b)[i].summary in Names(targets)
    {
      if i >= |a| {
        assert (a + b)[i] == b[i - |a|];
      }
    }
  }

  /** Creations justified by the first target, or by the later ones, are justified by all of them. */
  lemma {:induction false} CreationsJustifiedForMoreTargets(first: seq<Request>, rest: seq<Request>, cals: seq<CalendarEntry>,
                                         targets: seq<Target>)
    requires |targets| > 0
    requires CreationsJustified(first, cals, [targets[0]])
    requires CreationsJustified(rest, cals, targets[1..])
    ensures CreationsJustified(first, cals, targets) && CreationsJustified(rest, cals, targets)
  {
    assert Names([targets[0]]) == [targets[0].name];
    assert Names(targets) == [targets[0].name] + Names(targets[1..]);
  }

  /** A runner whose creations are each justified by the one target it runs. */
  ghost predicate RunnerJustified(run: TargetRunner, cals: seq<CalendarEntry>) {
    forall target: Target, view: SourceView, t: nat :: CreationsJustified(run(target, view, t).requests, cals, [target])
  }

  /** Resolving a target's calendar creates at most that calendar, in the fixed zone, and only when unlisted. */
  lemma {:induction false} ResolutionJustified(cals: seq<CalendarEntry>, target: Target, rs: Responses, t: nat)
    ensures CreationsJustified(ResolveCalendar(cals, target.name, rs, t).requests, cals, [target])
  {
    assert Names([target]) == [target.name];
  }

  /** One target creates at most its own calendar, in the fixed zone, and only when the list lacks it. */
  lemma {:induction false} TargetJustified(cals: seq<CalendarEntry>, target: Target, view: SourceView,
                        handlerFor: HandlerFactory, rs: Responses, t: nat)
    requires FactoryCreatesNoCalendar(handlerFor)
    ensures CreationsJustified(SyncTarget(cals, target, view, handlerFor, rs, t).requests, cals, [target])
  {
    var cal := ResolveCalendar(cals, target.name, rs, t);
    var r := SyncTarget(cals, target, view, handlerFor, rs, t);
    ResolutionJustified(cals, target, rs, t);
    if !cal.failed && view.Changed? {
      var handle := handlerFor(cal.calendarId, target.name);
      var done := SyncPages(handle, view.pages, t + |cal.requests|);
      assert r.requests == cal.requests + done.requests;
      LoopCreatesNoCalendar(handle, view.pages, t + |cal.requests|);
      assert CreationsJustified(done.requests, cals, [target]);
      CreationsJustifiedAppend(cal.requests, done.requests, cals, [target]);
    } else {
      assert r.requests == cal.requests;
    }
  }

  lemma {:induction false} RunTargetJustified(cals: seq<CalendarEntry>, handlerFor: HandlerFactory, rs: Responses)
    requires FactoryCreatesNoCalendar(handlerFor)
    ensures RunnerJustified(RunTarget(cals, handlerFor, rs), cals)
  {
    forall target: Target, view: SourceView, t: nat
      ensures CreationsJustified(RunTarget(cals, handlerFor, rs)(target, view, t).requests, cals, [target])
    {
      TargetJustified(cals, target, view, handlerFor, rs, t);
    }
  }

  lemma {:induction false} FirstAndRestJustified(r: Trace, first: Trace, rest: Trace, cals: seq<CalendarEntry>, targets: seq<Target>)
    requires |targets| > 0
    requires r == if first.aborted then first else Then(first, rest)
    requires CreationsJustified(first.requests, cals, [targets[0]])
    requires CreationsJustified(rest.requests, cals, targets[1..])
    ensures CreationsJustified(r.requests, cals, targets)
  {
    CreationsJustifiedForMoreTargets(first.requests, rest.requests, cals, targets);
    if !first.aborted {
      CreationsJustifiedAppend(first.requests, rest.requests, cals, targets);
    }
  }

  /**
   * Over the target loop, every calendar created is named after a
   * configured target, gets the fixed time zone, and bears a name no entry
   * of the calendar list had.
   */
  lemma {:induction false} CalendarsCreatedOnlyWhenUnlisted(run: TargetRunner, cals: seq<CalendarEntry>,
                                                            targets: seq<Target>, views: seq<SourceView>, t: nat)
    requires |views| == |targets|
    requires RunnerJustified(run, cals)
    ensures CreationsJustified(SyncTargets(run, targets, views, t).requests, cals, targets)
    decreases |targets|
  {
    if |targets| > 0 {
      var first := run(targets[0], views[0], t);
      var rest := SyncTargets(run, targets[1..], views[1..], t + |first.requests|);
      CalendarsCreatedOnlyWhenUnlisted(run, cals, targets[1..], views[1..], t + |first.requests|);
      TargetsStep(run, targets, views, t);
      FirstAndRestJustified(SyncTargets(run, targets, views, t), first, rest, cals, targets);
    }
  }

  /**
   * In a whole run, a calendar is created only for a configured target
   * whose name no entry of the calendar list bears, in the fixed zone.
   */
  lemma {:induction false} RunCreatesOnlyMissingCalendars(calendars: Option<seq<CalendarEntry>>, targets: seq<Target>,
                                       views: seq<SourceView>, rs: Responses)
    requires |views| == |targets|
    ensures calendars.Some? ==> CreationsJustified(Sync(calendars, targets, views, rs).requests, calendars.value, targets)
    ensures calendars.None? ==> Sync(calendars, targets, views, rs).requests == []
  {
    if calendars.Some? {
      DispatchFactoryCreatesNoCalendar(rs);
      RunTargetJustified(calendars.value, Dispatchers(rs), rs);
      CalendarsCreatedOnlyWhenUnlisted(RunTarget(calendars.value, Dispatchers(rs), rs), calendars.value, targets, views, 0);
    }
  }

  /** The number of requests among `reqs` that create a calendar named `name`. */
  function CountCreations(reqs: seq<Request>, name: string): nat {
    if |reqs| == 0 then 0
    else (if reqs[0].CreateCalendar? && reqs[0].summary == name then 1 else 0) + CountCreations(reqs[1..], name)
  }

  /** The number of targets whose calendar is named `name`. */
  function CountNamed(targets: seq<Target>, name: string): nat {
    if |targets| == 0 then 0
    else (if targets[0].name == name then 1 else 0) + CountNamed(targets[1..], name)
  }

  /** `reqs` create a calendar named `name` at most as often as `targets` bear that name. */
  predicate CreationsWithin(reqs: seq<Request>, targets: seq<Target>, name: string) {
    CountCreations(reqs, name) <= CountNamed(targets, name)
  }

  lemma {:induction false} CountCreationsAppend(a: seq<Request>, b: seq<Request>, name: string)
    ensures CountCreations(a + b, name) == CountCreations(a, name) + CountCreations(b, name)
    decreases |a|
  {
    if |a| == 0 {
      assert a + b == b;
    } else {
      assert (a + b)[1..] == a[1..] + b;
      CountCreationsAppend(a[1..], b, name);
    }
  }

  lemma {:induction false} NoCalendarCountsZero(reqs: seq<Request>, name: string)
    requires NoCalendarRequest(reqs)
    ensures CountCreations(reqs, name) == 0
    decreases |reqs|
  {
    if |reqs| > 0 {
      NoCalendarCountsZero(reqs[1..], name);
    }
  }

  /** A runner that creates, per target, at most one calendar of a name, and only when the target bears it. */
  ghost predicate RunnerCreatesOwn(run: TargetRunner, name: string) {
    forall target: Target, view: SourceView, t: nat :: CreationsWithin(run(target, view, t).requests, [target], name)
  }

  /** One target creates at most one calendar, and only one of its own name. */
  lemma {:induction false} TargetCreatesAtMostItsCalendar(cals: seq<CalendarEntry>, target: Target, view: SourceView,
                                       handlerFor: HandlerFactory, rs: Responses, t: nat, name: string)
    requires FactoryCreatesNoCalendar(handlerFor)
    ensures CreationsWithin(SyncTarget(cals, target, view, handlerFor, rs, t).requests, [target], name)
  {
    assert CountNamed([target], name) == if target.name == name then 1 else 0;
    var cal := ResolveCalendar(cals, target.name, rs, t);
    var r := SyncTarget(cals, target, view, handlerFor, rs, t);
    assert CountCreations(cal.requests, name) <= if target.name == name then 1 else 0;
    if !cal.failed && view.Changed? {
      var handle := handlerFor(cal.calendarId, target.name);
      var done := SyncPages(handle, view.pages, t + |cal.requests|);
      assert r.requests == cal.requests + done.requests;
      LoopCreatesNoCalendar(handle, view.pages, t + |cal.requests|);
      NoCalendarCountsZero(done.requests, name);
      CountCreationsAppend(cal.requests, done.requests, name);
    } else {
      assert r.requests == cal.requests;
    }
  }

  lemma {:induction false} RunTargetCreatesOwn(cals: seq<CalendarEntry>, handlerFor: HandlerFactory, rs: Responses, name: string)
    requires FactoryCreatesNoCalendar(handlerFor)
    ensures RunnerCreatesOwn(RunTarget(cals, handlerFor, rs), name)
  {
    forall target: Target, view: SourceView, t: nat
      ensures CreationsWithin(RunTarget(cals, handlerFor, rs)(target, view, t).requests, [target], name)
    {
      TargetCreatesAtMostItsCalendar(cals, target, view, handlerFor, rs, t, name);
    }
  }

  lemma {:induction false} FirstAndRestCount(r: Trace, first: Trace, rest: Trace, targets: seq<Target>, name: string)
    requires |targets| > 0
    requires r == if first.aborted then first else Then(first, rest)
    requires CreationsWithin(first.requests, [targets[0]], name)
    requires CreationsWithin(rest.requests, targets[1..], name)
    ensures CreationsWithin(r.requests, targets, name)
  {
    assert CountNamed([targets[0]], name) == if targets[0].name == name then 1 else 0;
    if !first.aborted {
      CountCreationsAppend(first.requests, rest.requests, name);
    }
  }

  /**
   * The target loop creates a calendar of a given name at most as often
   * as targets bear that name: the calendar list is read once, so two
   * targets of the same name would each create one.
   */
  lemma {:induction false} CreationsPerName(run: TargetRunner, targets: seq<Target>, views: seq<SourceView>,
                                            t: nat, name: string)
    requires |views| == |targets|
    requires RunnerCreatesOwn(run, name)
    ensures CreationsWithin(SyncTargets(run, targets, views, t).requests, targets, name)
    decreases |targets|
  {
    if |targets| > 0 {
      var first := run(targets[0], views[0], t);
      var rest := SyncTargets(run, targets[1..], views[1..], t + |first.requests|);
      CreationsPerName(run, targets[1..], views[1..], t + |first.requests|, name);
      TargetsStep(run, targets, views, t);
      FirstAndRestCount(SyncTargets(run, targets, views, t), first, rest, targets, name);
    }
  }

  /**
   * With the two configured targets, whose calendar names differ, a run
   * never creates two calendars of the same name.
   */
  lemma {:induction false} ConfiguredRunCreatesEachCalendarOnce(homeworkDb: string, assessmentsDb: string,
                                             calendars: Option<seq<CalendarEntry>>, views: seq<SourceView>,
                                             rs: Responses, name: string)
    requires |views| == 2
    ensures CountCreations(Sync(calendars, ConfiguredTargets(homeworkDb, assessmentsDb), views, rs).requests, name) <= 1
  {
    var targets := ConfiguredTargets(homeworkDb, assessmentsDb);
    assert CountNamed(targets, name) <= 1 by {
      assert targets[1..][1..] == [];
      assert CountNamed(targets[1..], name) == (if targets[1].name == name then 1 else 0) + CountNamed([], name);
      assert targets[0].name != targets[1].name;
    }
    if calendars.Some? {
      DispatchFactoryCreatesNoCalendar(rs);
      RunTargetCreatesOwn(calendars.value, Dispatchers(rs), rs, name);
      CreationsPerName(RunTarget(calendars.value, Dispatchers(rs), rs), targets, views, 0, name);
    }
  }

  /**
   * Once its calendar is resolved, a target with changed pages hands them
   * to the page loop: the i-th page it handled is what the handler for the
   * resolved calendar made of the i-th page read.
   */
  lemma {:induction false} TargetHandlesItsPages(cals: seq<CalendarEntry>, target: Target, view: SourceView,
                                                 handlerFor: HandlerFactory, rs: Responses, t: nat)
    requires view.Changed? && !ResolveCalendar(cals, target.name, rs, t).failed
    ensures var cal := ResolveCalendar(cals, target.name, rs, t);
            var r := SyncTarget(cals, target, view, handlerFor, rs, t);
      forall i :: 0 <= i < |r.handled| ==>
        HandledFrom(handlerFor(cal.calendarId, target.name), view.pages[i], r.handled[i])
  {
    var cal := ResolveCalendar(cals, target.name, rs, t);
    var handle := handlerFor(cal.calendarId, target.name);
    var done := SyncPages(handle, view.pages, t + |cal.requests|);
    var r := SyncTarget(cals, target, view, handlerFor, rs, t);
    ChangedTargetRunsLoop(cals, target, view, handlerFor, rs, t);
    LoopHandlesPagesInOrder(handle, view.pages, t + |cal.requests|);
    forall i | 0 <= i < |r.handled|
      ensures HandledFrom(handle, view.pages[i], r.handled[i])
    {
      assert r.handled[i] == done.handled[i];
    }
  }

  /** A target whose calendar resolves hands the pages of a changed database to the page loop. */
  lemma {:induction false} ChangedTargetRunsLoop(cals: seq<CalendarEntry>, target: Target, view: SourceView,
                                                 handlerFor: HandlerFactory, rs: Responses, t: nat)
    requires view.Changed? && !ResolveCalendar(cals, target.name, rs, t).failed
    ensures var cal := ResolveCalendar(cals, target.name, rs, t);
      SyncTarget(cals, target, view, handlerFor, rs, t)
      == Then(Trace(cal.requests, [], false),
              SyncPages(handlerFor(cal.calendarId, target.name), view.pages, t + |cal.requests|))
  {
  }

  /** The pages a database view holds: those its query returned, or none. */
  function PagesOf(view: SourceView): seq<Page> {
    if view.Changed? then view.pages else []
  }

  /** The pages of all views, in target order. */
  function PagesRead(views: seq<SourceView>): seq<Page> {
    if |views| == 0 then [] else PagesOf(views[0]) + PagesRead(views[1..])
  }

  /** The Notion ids of a sequence of pages, in order. */
  function Ids(pages: seq<Page>): seq<string> {
    if |pages| == 0 then [] else [pages[0].id] + Ids(pages[1..])
  }

  lemma {:induction false} IdsAppend(a: seq<Page>, b: seq<Page>)
    ensures Ids(a + b) == Ids(a) + Ids(b)
    decreases |a|
  {
    if |a| > 0 {
      assert (a + b)[1..] == a[1..] + b;
      IdsAppend(a[1..], b);
    } else {
      assert a + b == b;
    }
  }

  /** A page handler that returns the page it was given, by Notion id. */
  ghost predicate KeepsPageId(handle: PageHandler) {
    forall p: Page, c: nat :: handle(p, c).page.id == p.id
  }

  /** A page loop that does not abort has handled each page it was given, once and in order. */
  lemma {:induction false} LoopHandlesEveryPage(handle: PageHandler, pages: seq<Page>, t: nat)
    requires KeepsPageId(handle)
    ensures var r := SyncPages(handle, pages, t);
      !r.aborted ==> Ids(r.handled) == Ids(pages)
    decreases |pages|
  {
    if |pages| > 0 {
      var e := handle(pages[0], t);
      var r := SyncPages(handle, pages, t);
      if !e.escaped {
        var rest := SyncPages(handle, pages[1..], t + |e.requests|);
        LoopHandlesEveryPage(handle, pages[1..], t + |e.requests|);
        assert r.handled == [e.page] + rest.handled;
        IdsAppend([e.page], rest.handled);
        assert Ids([e.page]) == [pages[0].id];
      }
    }
  }

  /** A handler factory none of whose handlers swaps the page it was given. */
  ghost predicate FactoryKeepsPageId(handlerFor: HandlerFactory) {
    forall c: string, d: string :: KeepsPageId(handlerFor(c, d))
  }

  lemma {:induction false} DispatchFactoryKeepsPageId(rs: Responses)
    ensures FactoryKeepsPageId(Dispatchers(rs))
  {
    forall c: string, d: string, p: Page, k: nat
      ensures Dispatchers(rs)(c, d)(p, k).page.id == p.id
    {
      assert OnlyIdChanged(p, HandlePage(c, d, p, rs, k).page);
    }
  }

  /** A target that does not abort has handled every page its query returned, once and in order. */
  lemma {:induction false} TargetHandlesAll(cals: seq<CalendarEntry>, target: Target, view: SourceView,
                                            handlerFor: HandlerFactory, rs: Responses, t: nat)
    requires FactoryKeepsPageId(handlerFor)
    ensures var r := SyncTarget(cals, target, view, handlerFor, rs, t);
      !r.aborted ==> Ids(r.handled) == Ids(PagesOf(view))
  {
    var cal := ResolveCalendar(cals, target.name, rs, t);
    var r := SyncTarget(cals, target, view, handlerFor, rs, t);
    if !cal.failed && view.Changed? {
      var handle := handlerFor(cal.calendarId, target.name);
      var done := SyncPages(handle, view.pages, t + |cal.requests|);
      assert r.handled == done.handled && r.aborted == done.aborted;
      LoopHandlesEveryPage(handle, view.pages, t + |cal.requests|);
    } else {
      assert r.handled == [];
    }
  }

  /** A runner whose every target that does not abort has handled all the pages of its view. */
  ghost predicate RunnerHandlesAll(run: TargetRunner) {
    forall target: Target, view: SourceView, t: nat ::
      !run(target, view, t).aborted ==> Ids(run(target, view, t).handled) == Ids(PagesOf(view))
  }

  lemma {:induction false} RunTargetHandlesAll(cals: seq<CalendarEntry>, handlerFor: HandlerFactory, rs: Responses)
    requires FactoryKeepsPageId(handlerFor)
    ensures RunnerHandlesAll(RunTarget(cals, handlerFor, rs))
  {
    forall target: Target, view: SourceView, t: nat
      ensures var r := RunTarget(cals, handlerFor, rs)(target, view, t);
        !r.aborted ==> Ids(r.handled) == Ids(PagesOf(view))
    {
      TargetHandlesAll(cals, target, view, handlerFor, rs, t);
    }
  }

  lemma {:induction false} FirstAndRestHandleAll(r: Trace, first: Trace, rest: Trace, views: seq<SourceView>)
    requires |views| > 0
    requires r == if first.aborted then first else Then(first, rest)
    requires !first.aborted ==> Ids(first.handled) == Ids(PagesOf(views[0]))
    requires !rest.aborted ==> Ids(rest.handled) == Ids(PagesRead(views[1..]))
    ensures !r.aborted ==> Ids(r.handled) == Ids(PagesRead(views))
  {
    if !r.aborted {
      assert PagesRead(views) == PagesOf(views[0]) + PagesRead(views[1..]);
      IdsAppend(PagesOf(views[0]), PagesRead(views[1..]));
      IdsAppend(first.handled, rest.handled);
    }
  }

  /**
   * A target loop that does not abort has handled every page of every
   * view, once each, in target order and within each view in query order.
   */
  lemma {:induction false} TargetLoopHandlesEveryPage(run: TargetRunner, targets: seq<Target>, views: seq<SourceView>,
                                                      t: nat)
    requires |views| == |targets|
    requires RunnerHandlesAll(run)
    ensures var r := SyncTargets(run, targets, views, t);
      !r.aborted ==> Ids(r.handled) == Ids(PagesRead(views))
    decreases |targets|
  {
    if |targets| > 0 {
      var first := run(targets[0], views[0], t);
      var rest := SyncTargets(run, targets[1..], views[1..], t + |first.requests|);
      var r := SyncTargets(run, targets, views, t);
      TargetLoopHandlesEveryPage(run, targets[1..], views[1..], t + |first.requests|);
      assert !first.aborted ==> Ids(first.handled) == Ids(PagesOf(views[0]));
      TargetsStep(run, targets, views, t);
      FirstAndRestHandleAll(r, first, rest, views);
    }
  }

  /**
   * A run that completes read the calendar list and handled every page
   * every database query returned, once each and in order.
   */
  lemma {:induction false} CompletedRunHandlesEveryPage(calendars: Option<seq<CalendarEntry>>, targets: seq<Target>,
                                                        views: seq<SourceView>, rs: Responses)
    requires |views| == |targets|
    ensures var r := Sync(calendars, targets, views, rs);
      !r.aborted ==> calendars.Some? && Ids(r.handled) == Ids(PagesRead(views))
  {
    if calendars.Some? {
      DispatchFactoryKeepsPageId(rs);
      RunTargetHandlesAll(calendars.value, Dispatchers(rs), rs);
      TargetLoopHandlesEveryPage(RunTarget(calendars.value, Dispatchers(rs), rs), targets, views, 0);
    }
  }

  /** A page handler that never lets an error escape. */
  ghost predicate NeverEscapes(handle: PageHandler) {
    forall p: Page, c: nat :: !handle(p, c).escaped
  }

  /**
   * A target aborts only when creating its calendar failed, its database
   * could not be read, or the handler let an error escape on the last page
   * it handled; so a target whose calendar resolves, whose database can be
   * read and whose handler never lets an error escape runs to its end.
   */
  lemma {:induction false} TargetAbortsOnlyOnFailure(cals: seq<CalendarEntry>, target: Target, view: SourceView,
                                                     handlerFor: HandlerFactory, rs: Responses, t: nat)
    ensures var cal := ResolveCalendar(cals, target.name, rs, t);
            var r := SyncTarget(cals, target, view, handlerFor, rs, t);
      r.aborted ==>
        || cal.failed
        || view.Unreadable?
        || (view.Changed? && 0 < |r.handled| <= |view.pages|
            && EscapesOn(handlerFor(cal.calendarId, target.name), view.pages[|r.handled| - 1]))
    ensures var cal := ResolveCalendar(cals, target.name, rs, t);
      !cal.failed && !view.Unreadable? && NeverEscapes(handlerFor(cal.calendarId, target.name)) ==>
        !SyncTarget(cals, target, view, handlerFor, rs, t).aborted
  {
    var cal := ResolveCalendar(cals, target.name, rs, t);
    if !cal.failed && view.Changed? {
      var handle := handlerFor(cal.calendarId, target.name);
      var done := SyncPages(handle, view.pages, t + |cal.requests|);
      assert SyncTarget(cals, target, view, handlerFor, rs, t) == Then(Trace(cal.requests, [], false), done);
      LoopAbortsOnlyOnEscape(handle, view.pages, t + |cal.requests|);
    }
  }

  /** With every request succeeding, a target whose database can be read runs to its end. */
  lemma {:induction false} QuietTargetCompletes(cals: seq<CalendarEntry>, target: Target, view: SourceView,
                                                rs: Responses, t: nat)
    requires Quiet(rs)
    requires !view.Unreadable?
    ensures !SyncTarget(cals, target, view, Dispatchers(rs), rs, t).aborted
  {
    var cal := ResolveCalendar(cals, target.name, rs, t);
    assert rs(t).Ok?;
    forall p: Page, c: nat
      ensures !Dispatchers(rs)(cal.calendarId, target.name)(p, c).escaped
    {
      assert !HandlePage(cal.calendarId, target.name, p, rs, c).escaped;
    }
    TargetAbortsOnlyOnFailure(cals, target, view, Dispatchers(rs), rs, t);
  }

  /** A runner that runs every target with a readable database to its end. */
  ghost predicate CompletesOnReadable(run: TargetRunner) {
    forall target: Target, view: SourceView, t: nat :: !view.Unreadable? ==> !run(target, view, t).aborted
  }

  lemma {:induction false} QuietRunTargetCompletes(cals: seq<CalendarEntry>, rs: Responses)
    requires Quiet(rs)
    ensures CompletesOnReadable(RunTarget(cals, Dispatchers(rs), rs))
  {
    forall target: Target, view: SourceView, t: nat | !view.Unreadable?
      ensures !RunTarget(cals, Dispatchers(rs), rs)(target, view, t).aborted
    {
      QuietTargetCompletes(cals, target, view, rs, t);
    }
  }

  /**
   * The target loop visits every target: with a runner that completes on
   * readable databases and no unreadable database, it does not abort.
   */
  lemma {:induction false} TargetLoopCompletes(run: TargetRunner, targets: seq<Target>, views: seq<SourceView>, t: nat)
    requires |views| == |targets|
    requires CompletesOnReadable(run)
    requires forall i :: 0 <= i < |views| ==> !views[i].Unreadable?
    ensures !SyncTargets(run, targets, views, t).aborted
    decreases |targets|
  {
    if |targets| > 0 {
      var first := run(targets[0], views[0], t);
      assert !first.aborted;
      TargetLoopCompletes(run, targets[1..], views[1..], t + |first.requests|);
      TargetsStep(run, targets, views, t);
    }
  }

  /**
   * With the calendar list read, every request succeeding and every
   * database readable, a run goes through to the end and handles every
   * page every query returned, once each and in order.
   */
  lemma {:induction false} QuietRunCompletes(cals: seq<CalendarEntry>, targets: seq<Target>, views: seq<SourceView>,
                                             rs: Responses)
    requires |views| == |targets|
    requires Quiet(rs)
    requires forall i :: 0 <= i < |views| ==> !views[i].Unreadable?
    ensures var r := Sync(Some(cals), targets, views, rs);
      !r.aborted && Ids(r.handled) == Ids(PagesRead(views))
  {
    QuietRunTargetCompletes(cals, rs);
    TargetLoopCompletes(RunTarget(cals, Dispatchers(rs), rs), targets, views, 0);
    CompletedRunHandlesEveryPage(Some(cals), targets, views, rs);
  }

  /**
   * A database whose metadata lists no data source is skipped: when its
   * calendar already exists, the run goes on with the next target exactly
   * as if it had not been configured.
   */
  lemma {:induction false} SkippedDatabaseDoesNotStopRun(cals: seq<CalendarEntry>, targets: seq<Target>, views: seq<SourceView>,
                                      handlerFor: HandlerFactory, rs: Responses, t: nat)
    requires |targets| > 0 && |views| == |targets|
    requires views[0] == NoDataSource
    requires !Unlisted(cals, targets[0].name)
    ensures SyncTargets(RunTarget(cals, handlerFor, rs), targets, views, t)
            == SyncTargets(RunTarget(cals, handlerFor, rs), targets[1..], views[1..], t)
  {
    var first := SyncTarget(cals, targets[0], views[0], handlerFor, rs, t);
    assert ResolveCalendar(cals, targets[0].name, rs, t).requests == [];
    TargetsStep(RunTarget(cals, handlerFor, rs), targets, views, t);
    ThenNothingFirst(first, SyncTargets(RunTarget(cals, handlerFor, rs), targets[1..], views[1..], t));
  }

  lemma {:induction false} ThenNothingFirst(first: Trace, rest: Trace)
    requires first == Trace([], [], false)
    ensures Then(first, rest) == rest
  {
    assert [] + rest.requests == rest.requests;
    assert [] + rest.handled == rest.handled;
  }

  /**
   * A database that cannot be read ends the run: nothing is requested
   * after its calendar is resolved and no later target is processed.
   */
  lemma {:induction false} UnreadableDatabaseEndsRun(cals: seq<CalendarEntry>, targets: seq<Target>, views: seq<SourceView>,
                                  handlerFor: HandlerFactory, rs: Responses, t: nat)
    requires |targets| > 0 && |views| == |targets|
    requires views[0] == Unreadable
    ensures var r := SyncTargets(RunTarget(cals, handlerFor, rs), targets, views, t);
      && r.aborted && r.handled == []
      && r.requests == ResolveCalendar(cals, targets[0].name, rs, t).requests
  {
    TargetsStep(RunTarget(cals, handlerFor, rs), targets, views, t);
  }

  /**
   * The page loop written as the source writes it, a loop over the pages
   * with an early exit when a handler lets an error escape; it yields the
   * same trace as the functional model.
   */
  method RunPages(handle: PageHandler, pages: seq<Page>, t0: nat) returns (trace: Trace)
    ensures trace == SyncPages(handle, pages, t0)
  {
    var requests: seq<Request> := [];
    var handled: seq<Page> := [];
    var t := t0;
    var i := 0;
    while i < |pages|
      invariant 0 <= i <= |pages|
      invariant t == t0 + |requests|
      invariant SyncPages(handle, pages, t0) == Then(Trace(requests, handled, false), SyncPages(handle, pages[i..], t))
    {
      var e := handle(pages[i], t);
      if e.escaped {
        EscapingStep(handle, pages, t0, i, requests, handled, t);
        return Trace(requests + e.requests, handled + [e.page], true);
      }
      ContinuingStep(handle, pages, t0, i, requests, handled, t);
      requests := requests + e.requests;
      handled := handled + [e.page];
      t := t + |e.requests|;
      i := i + 1;
    }
    assert pages[i..] == [];
    assert requests + [] == requests && handled + [] == handled;
    trace := Trace(requests, handled, false);
  }

  /** The loop state after a page whose handler let no error escape. */
  lemma {:induction false} ContinuingStep(handle: PageHandler, pages: seq<Page>, t0: nat, i: nat,
                                          requests: seq<Request>, handled: seq<Page>, t: nat)
    requires i < |pages| && !handle(pages[i], t).escaped
    requires SyncPages(handle, pages, t0) == Then(Trace(requests, handled, false), SyncPages(handle, pages[i..], t))
    ensures var e := handle(pages[i], t);
      SyncPages(handle, pages, t0)
      == Then(Trace(requests + e.requests, handled + [e.page], false), SyncPages(handle, pages[i + 1..], t + |e.requests|))
  {
    var e := handle(pages[i], t);
    PagesStep(handle, pages[i..], t);
    assert pages[i..][0] == pages[i];
    assert pages[i..][1..] == pages[i + 1..];
    var rest := SyncPages(handle, pages[i + 1..], t + |e.requests|);
    assert SyncPages(handle, pages[i..], t) == Then(Trace(e.requests, [e.page], false), rest);
    ThenAssociates(Trace(requests, handled, false), Trace(e.requests, [e.page], false), rest);
  }

  /** The loop's result when the handler lets an error escape on page i. */
  lemma {:induction false} EscapingStep(handle: PageHandler, pages: seq<Page>, t0: nat, i: nat,
                                        requests: seq<Request>, handled: seq<Page>, t: nat)
    requires i < |pages| && handle(pages[i], t).escaped
    requires SyncPages(handle, pages, t0) == Then(Trace(requests, handled, false), SyncPages(handle, pages[i..], t))
    ensures var e := handle(pages[i], t);
      SyncPages(handle, pages, t0) == Trace(requests + e.requests, handled + [e.page], true)
  {
    PagesStep(handle, pages[i..], t);
    assert pages[i..][0] == pages[i];
  }

  /** One step of the page loop: the first page, then, unless its handler escaped, the others. */
  lemma {:induction false} PagesStep(handle: PageHandler, pages: seq<Page>, t: nat)
    requires |pages| > 0
    ensures var e := handle(pages[0], t);
      SyncPages(handle, pages, t)
      == if e.escaped then Trace(e.requests, [e.page], true)
         else Then(Trace(e.requests, [e.page], false), SyncPages(handle, pages[1..], t + |e.requests|))
  {
  }

  lemma {:induction false} ThenAssociates(a: Trace, b: Trace, c: Trace)
    requires !a.aborted && !b.aborted
    ensures Then(a, Then(b, c)) == Then(Trace(a.requests + b.requests, a.handled + b.handled, false), c)
  {
    assert a.requests + (b.requests + c.requests) == (a.requests + b.requests) + c.requests;
    assert a.handled + (b.handled + c.handled) == (a.handled + b.handled) + c.handled;
  }
}

=== FILE: sync_run.dfy ===
/**
 * One synchronisation run: for each configured database, in order, find or
 * create its calendar, read the pages changed recently, and hand each page
 * to the delete or upsert path. Any error that is not handled per page
 * ends the whole run.
 */
module SyncRun {
  import opened Optional
  import opened NotionPage
  import opened CalendarEvent
  import opened Remote
  import opened Reconcile

  /** A configured pair: a Notion database and the name of its Google calendar. */
  datatype Target = Target(databaseId: string, name: string)

  /** The two databases the script synchronises, with their calendar names. */
  function ConfiguredTargets(homeworkDb: string, assessmentsDb: string): (ts: seq<Target>)
    ensures forall i, j :: 0 <= i < j < |ts| ==> ts[i].name != ts[j].name
  {
    [Target(homeworkDb, "Homework"), Target(assessmentsDb, "Assessments")]
  }

  /** An entry of the account's calendar list. */
  datatype CalendarEntry = CalendarEntry(id: string, summary: string)

  /**
   * What reading a database yields: a failure (of the metadata retrieval or
   * of the query), metadata without any data source, or the pages the query
   * of its first data source returned, in the order returned. A run reads
   * each target's database afresh, after the earlier targets' writes, so
   * the run takes one view per target, in target order, and two targets on
   * the same database may see different views.
   */
  datatype SourceView = Unreadable | NoDataSource | Changed(pages: seq<Page>)

  /** The first calendar whose summary is exactly `name`, if any. */
  function FindCalendar(cals: seq<CalendarEntry>, name: string): (r: Option<nat>)
    ensures r.Some? ==> r.value < |cals| && cals[r.value].summary == name
    ensures r.Some? ==> forall j :: 0 <= j < r.value ==> cals[j].summary != name
    ensures r.None? <==> forall j :: 0 <= j < |cals| ==> cals[j].summary != name
  {
    if |cals| == 0 then None
    else if cals[0].summary == name then Some(0)
    else
      match FindCalendar(cals[1..], name)
      case None => None
      case Some(i) => Some(i + 1)
  }

  /** No entry of the calendar list is named `name`. */
  ghost predicate Unlisted(cals: seq<CalendarEntry>, name: string) {
    forall j :: 0 <= j < |cals| ==> cals[j].summary != name
  }

  /** The calendar id a run uses for a target, the requests resolving it took, and whether it failed. */
  datatype Resolution = Resolution(calendarId: string, requests: seq<Request>, failed: bool)

  /**
   * Finds the calendar by exact name in the list read at the start of the
   * run; only when none matches is one created, in the fixed time zone.
   * A failed creation ends the run.
   */
  function ResolveCalendar(cals: seq<CalendarEntry>, name: string, rs: Responses, t: nat): (r: Resolution)
    ensures r.requests == [] <==> exists j :: 0 <= j < |cals| && cals[j].summary == name
    ensures r.requests != [] ==> r.requests == [CreateCalendar(name, TimeZone)]
    ensures r.requests == [] ==> !r.failed
    ensures r.requests == [] ==>
      exists j :: 0 <= j < |cals| && cals[j].summary == name && cals[j].id == r.calendarId
                  && forall k :: 0 <= k < j ==> cals[k].summary != name
    ensures r.requests != [] ==> (r.failed <==> rs(t).Err?)
    ensures r.requests != [] && rs(t).Ok? ==> r.calendarId == ValueOr(rs(t).returnedId, "")
  {
    match FindCalendar(cals, name)
    case Some(i) => Resolution(cals[i].id, [], false)
    case None =>
      var create := CreateCalendar(name, TimeZone);
      match rs(t)
      case Ok(returned) => Resolution(ValueOr(returned, ""), [create], false)
      case Err(_) => Resolution("", [create], true)
  }

  /**
   * The requests a run (or part of it) issued, the pages it handled as
   * Notion holds them afterwards, and whether it ended early on an error.
   */
  datatype Trace = Trace(requests: seq<Request>, handled: seq<Page>, aborted: bool)

  /** `first` followed by `rest`; the result aborted when `rest` did. */
  function Then(first: Trace, rest: Trace): Trace {
    Trace(first.requests + rest.requests, first.handled + rest.handled, rest.aborted)
  }

  /** What handling one page at a given clock does, with calendar, database and responses fixed. */
  type PageHandler = (Page, nat) -> Effect

  /** The page handler the run uses for a calendar id and a database name. */
  type HandlerFactory = (string, string) -> PageHandler

  /** The handler the page loop uses: the Done/Active dispatch into the delete or upsert path. */
  function Dispatch(calendarId: string, dbName: string, rs: Responses): PageHandler {
    (page: Page, t: nat) => HandlePage(calendarId, dbName, page, rs, t)
  }

  /**
   * The page loop for one database: each page is handled in order, the
   * k-th request of the loop receiving the response at clock t + k. A page
   * whose handler let an error escape ends the loop, and with it the run;
   * otherwise every page is handled exactly once.
   */
  function SyncPages(handle: PageHandler, pages: seq<Page>, t: nat): (r: Trace)
    decreases |pages|
    ensures |r.handled| <= |pages|
    ensures !r.aborted ==> |r.handled| == |pages|
    ensures r.aborted ==> |r.handled| > 0
  {
    if |pages| == 0 then Trace([], [], false)
    else
      var e := handle(pages[0], t);
      if e.escaped then Trace(e.requests, [e.page], true)
      else Then(Trace(e.requests, [e.page], false), SyncPages(handle, pages[1..], t + |e.requests|))
  }

  /**
   * One target: resolve its calendar against the calendar list, read its
   * database (`view`), and handle the changed pages with the handler
   * `handlerFor` gives for that calendar and database name. A database
   * without a data source yields only the resolution; an unreadable
   * database or a failed calendar creation aborts, and a failed creation
   * does so before the database is read.
   */
  function SyncTarget(cals: seq<CalendarEntry>, target: Target, view: SourceView,
                      handlerFor: HandlerFactory, rs: Responses, t: nat): (r: Trace)
    ensures !view.Changed? ==> r.requests == ResolveCalendar(cals, target.name, rs, t).requests && r.handled == []
    ensures view.Unreadable? ==> r.aborted
    ensures view.NoDataSource? ==> (r.aborted <==> ResolveCalendar(cals, target.name, rs, t).failed)
    ensures ResolveCalendar(cals, target.name, rs, t).failed ==>
              r.aborted && r.handled == [] && r.requests == ResolveCalendar(cals, target.name, rs, t).requests
    ensures view.Changed? && !ResolveCalendar(cals, target.name, rs, t).failed && !r.aborted ==>
              |r.handled| == |view.pages|
    ensures var resolution := ResolveCalendar(cals, target.name, rs, t).requests;
      |resolution| <= |r.requests| && r.requests[..|resolution|] == resolution
  {
    var cal := ResolveCalendar(cals, target.name, rs, t);
    var resolved := Trace(cal.requests, [], false);
    if cal.failed then Trace(cal.requests, [], true)
    else
      match view
      case Unreadable => Trace(cal.requests, [], true)
      case NoDataSource => resolved
      case Changed(pages) => Then(resolved, SyncPages(handlerFor(cal.calendarId, target.name), pages, t + |cal.requests|))
  }

  /** What running one target from a given clock does, with the calendar list, handlers and responses fixed. */
  type TargetRunner = (Target, SourceView, nat) -> Trace

  /** The handler factory of a run: the Done/Active dispatch for each calendar id and database name. */
  function Dispatchers(rs: Responses): HandlerFactory {
    (c: string, d: string) => Dispatch(c, d, rs)
  }

  /** The target runner of a run: `SyncTarget` with the run's calendar list, handler factory and responses. */
  function RunTarget(cals: seq<CalendarEntry>, handlerFor: HandlerFactory, rs: Responses): TargetRunner {
    (target: Target, view: SourceView, t: nat) => SyncTarget(cals, target, view, handlerFor, rs, t)
  }

  /** A runner that aborts, having handled no page, whenever the database cannot be read. */
  ghost predicate StopsOnUnreadable(run: TargetRunner) {
    forall target: Target, view: SourceView, t: nat ::
      view.Unreadable? ==> run(target, view, t).aborted && run(target, view, t).handled == []
  }

  lemma RunTargetStopsOnUnreadable(cals: seq<CalendarEntry>, handlerFor: HandlerFactory, rs: Responses)
    ensures StopsOnUnreadable(RunTarget(cals, handlerFor, rs))
  {
  }

  /**
   * The loop over targets, in configuration order; `views[i]` is what
   * reading the database of `targets[i]` yields when the run gets there.
   * A skipped database lets the loop go on; an abort in any target ends
   * the run, so no later target is processed.
   */
  function SyncTargets(run: TargetRunner, targets: seq<Target>, views: seq<SourceView>, t: nat): (r: Trace)
    requires |views| == |targets|
    decreases |targets|
    ensures StopsOnUnreadable(run) && !r.aborted ==> forall i :: 0 <= i < |targets| ==> !views[i].Unreadable?
    ensures StopsOnUnreadable(run) && |targets| > 0 && views[0].Unreadable? ==> r.aborted && r.handled == []
  {
    if |targets| == 0 then Trace([], [], false)
    else
      var first := run(targets[0], views[0], t);
      if first.aborted then first
      else Then(first, SyncTargets(run, targets[1..], views[1..], t + |first.requests|))
  }

  /**
   * The whole run. The calendar list, read once before any target by a
   * remote call, is an input: `None` when that read failed, in which case
   * nothing else happens. Failures never propagate out of the run: they
   * end it with `aborted` set.
   */
  function Sync(calendars: Option<seq<CalendarEntry>>, targets: seq<Target>, views: seq<SourceView>,
                rs: Responses): (r: Trace)
    requires |views| == |targets|
    ensures calendars.None? ==> r.requests == [] && r.aborted
    ensures !r.aborted ==> calendars.Some? && forall i :: 0 <= i < |targets| ==> !views[i].Unreadable?
  {
    match calendars
    case None => Trace([], [], true)
    case Some(cals) =>
      RunTargetStopsOnUnreadable(cals, Dispatchers(rs), rs);
      SyncTargets(RunTarget(cals, Dispatchers(rs), rs), targets, views, 0)
  }
}
